=== FILE: README.md ===
# ConectaVizinhos — a verified model of the store directory core

ConectaVizinhos is a neighbourhood store directory. Its Express server keeps
stores in an in-memory `lojas` table and exposes routes to list, look up,
create, update and delete them. It also keeps user accounts for registration
and login. The browser pages search and filter the cached store list, and on
a store's page the visitor fills a cart and sends the order to the store
over WhatsApp. This project models that core in Dafny and proves what it
promises.

| module | file | what it models |
|---|---|---|
| `Wrappers` | `wrappers.dfy` | the `Option` type (a JSON key that may be absent, `NaN`, "not found") |
| `Texto` | `texto.dfy` | the JavaScript string operations the logic relies on: `\s`/`trim`, ASCII `toLowerCase`, `includes`, `split(":")[0]`, `parseInt`, writing an integer in a template string |
| `Sequencias` | `sequencias.dfy` | `Array.prototype.filter` as an order-preserving selection |
| `Lojas` | `loja.dfy` | the store record, the JSON bodies of `POST`/`PUT /lojas`, the `{ ...a, ...b }` merge, the seed table and the simulated product lists (JS/server.js) |
| `Catalogo` | `catalogo.dfy` | the store routes of JS/server.js over the `lojas` table, as a class `Servidor` whose methods are the route handlers |
| `Usuarios` | `usuarios.dfy` | `validarEmail`, the registration check chain and the login chain (JS/server.js) |
| `Vitrine` | `vitrine.dfy` | the search box and the category / opening-hours / delivery filter of JS/lojas.js |
| `PerfilLoja` | `carrinho.dfy` | the cart of JS/perfil.js as a class `Carrinho`, and the order message |

Things outside the program are parameters:
- The current hour (`horaAtual`, 0 to 23) is a parameter of the filter.
- bcrypt's hash and comparison are function parameters of registration and
  login.
- The database's new `_id` is a parameter of registration.
- The formatted cart total (`toFixed(2)`) is a string parameter of the order
  message.

## Model

| member | source | states |
|---|---|---|
| Texto.Minusculas | JS/server.js:198-199 | `toLowerCase` keeps the length, turns each ASCII capital into its small letter (code + 32) and leaves every other character as it was; no capital remains and white space stays where it was |
| Texto.MinusculasIdempotente | JS/server.js:198 | lowering an already lowered string changes nothing |
| Texto.Aparar | JS/lojas.js:137 | `trim` returns the contiguous slice of the input that lies between leading and trailing white space; the slice neither starts nor ends with white space |
| Texto.ApararVazio | JS/perfil.js:173 | a string trims to `""` exactly when every character of it is white space |
| Texto.ApararMinusculas | JS/lojas.js:137 | trimming and lowering commute |
| Texto.ParteAntesDe | JS/lojas.js:214-215 | `split(":")[0]` is the prefix before the first `:`; it holds no `:` and is the whole string when there is none |
| Texto.ParseInt | JS/server.js:206 | `parseInt` with no radix: leading white space skipped, an optional sign, the longest run of digits, `NaN` (`None`) when there is no digit; ParseIntDigitos and ParseIntDecimal state what it reads, within 2^53 |
| Texto.ParseIntDecimal | JS/server.js:206 | `parseInt` reads the decimal text of an integer of magnitude at most 2^53 back as that integer |
| Texto.ParseIntDigitos | JS/lojas.js:214-215 | `parseInt` of a non-empty run of digits whose value is at most 2^53 is the number the digits write |
| Texto.ParseIntPrefixo | JS/server.js:206 | `parseInt` skips leading white space, takes one optional sign, reads the run of digits and ignores whatever follows the first non-digit |
| Texto.Contem | JS/server.js:199 | `includes` holds exactly when the needle occurs at some position of the text |
| Texto.Decimal | JS/perfil.js:182 | the text of an integer is a non-empty run of digits without a leading zero, after a `-` for a negative number; ParseIntDecimal reads it back |
| Texto.ComprimentoUtf16 | JS/server.js:51 | `length` counts UTF-16 code units: at least one and at most two per character |
| Texto.ComprimentoUtf16Extremos | JS/server.js:51 | a string without characters above U+FFFF has as many code units as characters; one made only of such characters has twice as many |
| Sequencias.Filtrar | JS/server.js:198-199 | `filter` returns no more elements than it got; every element kept passes the predicate, and every passing element is kept |
| Sequencias.FiltrarConcat | JS/lojas.js:207 | filtering two arrays joined gives their filters joined |
| Sequencias.FiltrarSelecao | JS/server.js:241 | `filter` keeps exactly the positions whose element passes, in their original order |
| Sequencias.FiltrarFiltrar | JS/server.js:198-199 | two filters in a row equal one filter by the conjunction of their predicates |
| Sequencias.FiltrarTodos | JS/server.js:196 | a filter that every element passes returns the array unchanged |
| Sequencias.FiltrarIdempotente | JS/server.js:241 | filtering twice by the same predicate is filtering once |
| Lojas.Mesclar | JS/server.js:234 | `{ ...loja, ...body }`: each key present in the body overwrites the field, and every absent key leaves the field as it was |
| Lojas.MesclarVazio | JS/server.js:234 | merging a body with no keys leaves the store unchanged |
| Lojas.MesclarIdempotente | JS/server.js:234 | merging the same body twice equals merging it once |
| Lojas.MesclarDuasVezes | JS/server.js:234 | two updates in a row equal one update with the second body spread over the first |
| Lojas.NovaLoja | JS/server.js:220-224 | the created record carries the server's id and the body's `nome` and `categoria`, and is the body spread over a record holding only that id: each optional field is present exactly when the body has its key, with the body's value |
| Catalogo.Listar | JS/server.js:196-199 | the listing has no more stores than the table, and a store is listed exactly when it is in the table and passes the category and name filters that are set; ListarExato adds the order |
| Catalogo.ListarUmaPassada | JS/server.js:196-199 | the category filter followed by the name filter is one filter by "category equal ignoring case, and name contains the text ignoring case"; an absent or empty parameter imposes nothing |
| Catalogo.ListarExato | JS/server.js:194-201 | the listing is the order-preserving subsequence of exactly the stores that pass both filters |
| Catalogo.ListarSemFiltro | JS/server.js:196-199 | with no category and an empty name, the listing is the whole table |
| Catalogo.IndicePorId | JS/server.js:231 | `findIndex` returns the first position holding the id, and returns -1 (`None`) exactly when no store has it |
| Catalogo.BuscarPorId | JS/server.js:206-208 | a store is found exactly when the parameter parses and some store has that id; what is found is the first such store |
| Catalogo.ProdutosDe | JS/server.js:214-215 | a non-empty product list comes only from a parsed id that has an entry in the product table |
| Catalogo.ProdutosSoDasDuasPrimeiras | JS/server.js:176-187 | only ids 1 and 2 have products, and store 1 has three |
| Catalogo.SeedCrescente | JS/server.js:106-171 | the seed table's ids strictly increase |
| Catalogo.ProximoId | JS/server.js:223 | while ids increase and the next id is at most 2^53 in magnitude, it is above every id in the table |
| Catalogo.AposCriar | JS/server.js:223-224 | the table grows by one store at its end, with the earlier stores untouched; the new store has the next id and the body's name |
| Catalogo.CriarPreservaCrescentes | JS/server.js:223-224 | while ids increase along the table and the next id is at most 2^53 in magnitude, the next id exceeds every existing id, and appending the new store keeps them increasing |
| Catalogo.CriarEntaoBuscar | JS/server.js:219-226 | with increasing ids and a next id of magnitude at most 2^53, a store just created is what `GET /lojas/:id` returns for its new id |
| Catalogo.AposAtualizar | JS/server.js:230-234 | an update fails (404) exactly when the lookup by that parameter fails; otherwise the table keeps its length |
| Catalogo.AtualizarSoUmaEntrada | JS/server.js:231-234 | an update replaces only the first store with the id, by its merge with the body; every other entry is unchanged |
| Catalogo.AtualizarEntaoBuscar | JS/server.js:229-236 | after an update whose body has no `id`, the lookup by the same parameter returns the merged store |
| Catalogo.AtualizarPreservaCrescentes | JS/server.js:234 | an update whose body has no `id` keeps ids increasing |
| Catalogo.AtualizarPodeRepetirId | JS/server.js:234 | a body carrying `id` is merged too: giving a store the id of another store leaves two stores with that id, so ids no longer increase |
| Catalogo.AposExcluir | JS/server.js:240-241 | deletion never adds a store; after it no store has the parsed id, and an unparsable parameter leaves the table as it was; ExcluirExato adds the order |
| Catalogo.ExcluirExato | JS/server.js:240-241 | deletion keeps, in order, exactly the stores whose id differs from the parsed parameter; an unparsable parameter keeps them all |
| Catalogo.ExcluirIdempotente | JS/server.js:241 | deleting twice is deleting once |
| Catalogo.ExcluirEntaoBuscar | JS/server.js:241 | after a delete, the lookup by the same parameter finds nothing |
| Catalogo.Servidor.constructor | JS/server.js:106-171 | the server starts with the four seed stores |
| Catalogo.Servidor.GetLojas | JS/server.js:194-202 | 200 with exactly the stores passing both filters, in table order; with no filter, the whole table |
| Catalogo.Servidor.GetLoja | JS/server.js:205-210 | 404 "Loja não encontrada." exactly when the parameter does not parse or no store has the id; otherwise 200 with the first store with the id |
| Catalogo.Servidor.GetProdutos | JS/server.js:213-216 | always 200, with the id's product list or an empty list |
| Catalogo.Servidor.PostLoja | JS/server.js:219-226 | a body without a truthy `nome` or `categoria` gives 400 and leaves the table unchanged; otherwise the new store is appended with id last id + 1 (1 on an empty table) and returned with 201; increasing ids stay increasing while the next id is at most 2^53 in magnitude |
| Catalogo.Servidor.PutLoja | JS/server.js:229-236 | 404 with the table unchanged when the id is not found; otherwise the first store with the id is merged with the body and returned with 200 |
| Catalogo.Servidor.DeleteLoja | JS/server.js:239-243 | always 200 "Loja removida com sucesso."; the table keeps, in order, exactly the stores with another id |
| Usuarios.ValidarEmail | JS/server.js:29-32 | an accepted address has at least five characters and no white space; ValidarEmailCasaRegex states the exact set it accepts |
| Usuarios.ValidarEmailSoRegex | JS/server.js:29-32 | every address `validarEmail` accepts has the form `a@b.c`, with three non-empty runs free of white space and `@` |
| Usuarios.RegexSoValidarEmail | JS/server.js:29-32 | every string of that form is accepted |
| Usuarios.ValidarEmailCasaRegex | JS/server.js:29-32 | `validarEmail` accepts exactly the strings `/^[^\s@]+@[^\s@]+\.[^\s@]+$/` matches |
| Usuarios.Cadastrar | JS/server.js:41-67 | the checks run in the route's order: a missing field, then an invalid e-mail, then a password shorter than 6 UTF-16 code units, then an e-mail already registered, then a `dataNascimento` the schema cannot cast to a date (`save()` rejects, nothing is stored), and each error holds exactly when the earlier checks pass and its own fails; on success exactly one account is added under the e-mail, the others are untouched, and the new account is exactly the new id, the body's `nome`, `dataNascimento` and `email`, the hash of the typed password, `tipo` "usuario" and no `fotoPerfil` |
| Usuarios.RespostaCadastro | JS/server.js:43-67 | the route answers 400 exactly when one of the four checks fails, 500 exactly when they pass but the date does not cast, and 201, with the success message, exactly when the checks pass and the date casts |
| Usuarios.SenhaCurtaEmUnidades | JS/server.js:51 | six characters always pass the length check and two never do; three characters above U+FFFF count as six code units and pass |
| Usuarios.CadastroRepetido | JS/server.js:55-58 | registering the same e-mail a second time is refused as already registered |
| Usuarios.Entrar | JS/server.js:73-96 | 400 exactly when e-mail or password is missing, 404 exactly when no account has the e-mail, 401 exactly when the password does not match; otherwise the account's id, name and e-mail |
| Usuarios.CadastroEntaoLogin | JS/server.js:39-101 | after a successful registration, logging in with the same e-mail and password returns the new account, given that bcrypt accepts a password against its own hash |
| Vitrine.Buscar | JS/lojas.js:136-150 | the search shows only stores of the cache, no more of them than it holds, and with a non-empty query only stores whose name, description or category contains it; BuscaEmBrancoMostraTudo and BuscaExata give the full result |
| Vitrine.BuscaEmBrancoMostraTudo | JS/lojas.js:137-141 | an input that is empty or only white space shows the whole cache |
| Vitrine.BuscaExata | JS/lojas.js:144-150 | any other input shows, in cache order, exactly the stores whose lowered name, description or category contains the trimmed, lowered input |
| Vitrine.BuscaIgnoraCaixa | JS/lojas.js:137 | the search gives the same result for an input and for its lower-case form |
| Vitrine.AplicarFiltros | JS/lojas.js:199-202 | nothing is shown (the alert) exactly when the cache is empty |
| Vitrine.FiltrosExatos | JS/lojas.js:207-229 | the filter keeps, in cache order, exactly the stores passing the category, hour and delivery tests together |
| Vitrine.FiltrosNeutros | JS/lojas.js:209-226 | with "todas" and no hour or delivery choice, the whole cache is shown |
| Vitrine.Aberta | JS/lojas.js:213-216 | the "aberto" test `horaAtual >= abre && horaAtual < fecha`, false when an hour is `NaN`; AbertaOuFechada, HorasIlegiveis and FechaAposMeiaNoite state its behaviour |
| Vitrine.Fechada | JS/lojas.js:217-220 | the "fechado" test, `horaAtual < abre` or `horaAtual >= fecha`, each comparison false with a `NaN` hour; AbertaOuFechada and HorasIlegiveis relate it to Aberta |
| Vitrine.HorarioOk | JS/lojas.js:212-221 | the hour choice applies only to a store with both times; SemHorarioPassa and FechaAntesDeAbrir state its outcomes |
| Vitrine.AbertaOuFechada | JS/lojas.js:213-221 | when both hours parse, a store is "aberto" exactly when it is not "fechado" |
| Vitrine.HorasIlegiveis | JS/lojas.js:214-220 | when neither hour parses (`NaN`), the store passes neither "aberto" nor "fechado" |
| Vitrine.FechaAposMeiaNoite | JS/lojas.js:216-220 | a store whose closing hour is not after its opening hour is never "aberto" and always "fechado" |
| Vitrine.Hora | JS/lojas.js:214-215 | the hour of a time is `parseInt` of its part before the first `:`; HoraDeHHMM gives the hour of an "HH:MM" text and HorasIlegiveis the outcome when it is NaN |
| Vitrine.CategoriaOk | JS/lojas.js:209 | "todas" or the store's exact category; FiltrosNeutros shows that "todas" lets every store through and FiltrosExatos that the button keeps exactly the stores passing it |
| Vitrine.EntregadorOk | JS/lojas.js:223-226 | "sim" asks for `motoboy === true`, "nao" for `motoboy === false`, any other choice passes; SemMotoboy states the outcomes for a store without the flag |
| Vitrine.HoraDeHHMM | JS/lojas.js:214-215 | the hour read from an "HH:MM" time whose hour part is digits worth at most 2^53 is the number those digits write |
| Vitrine.FechaAntesDeAbrir | JS/lojas.js:213-221 | a store whose "HH:MM" closing hour is at or before its opening hour (both at most 2^53) fails "aberto" and passes "fechado" at every hour |
| Vitrine.LanchoneteNuncaAberta | JS/server.js:155-170 | the seed store "Lanchonete Sabor Local", open from 10:00 to 02:00, fails "aberto" and passes "fechado" at every hour of the page's filter |
| Vitrine.SemHorarioPassa | JS/lojas.js:212-221 | a store missing either time passes every hour choice |
| Vitrine.SemMotoboy | JS/lojas.js:224-226 | a store without a `motoboy` flag fails both "sim" and "nao" and passes every other choice |
| PerfilLoja.Soma | JS/perfil.js:104 | the `reduce` total of the quantities; SomaConcat, SomaPartes and SomaValido state how it adds up and its lower bound |
| PerfilLoja.SomaConcat | JS/perfil.js:104 | the counted total of two carts joined is the sum of their totals |
| PerfilLoja.SomaPartes | JS/perfil.js:104 | the counted total is the total before an entry, plus its quantity, plus the total after it |
| PerfilLoja.SomaTroca | JS/perfil.js:93 | changing one entry's quantity changes the total by the difference |
| PerfilLoja.SomaSem | JS/perfil.js:154 | splicing an entry out lowers the total by its quantity |
| PerfilLoja.SomaValido | JS/perfil.js:104 | in a valid cart the total is at least the number of entries |
| PerfilLoja.IndicePorNome | JS/perfil.js:91 | `find` by name returns the first entry with that name, and nothing exactly when no entry has it |
| PerfilLoja.Adicionado | JS/perfil.js:91-96 | a product already in the cart gets one more unit at its entry, with the length and every other entry unchanged; otherwise a copy with quantity 1 is appended; either way the total rises by exactly 1 |
| PerfilLoja.AdicionadoValido | JS/perfil.js:91-96 | adding keeps names distinct and every quantity at least 1 |
| PerfilLoja.QuantidadeAlterada | JS/perfil.js:151-155 | the entry moves by `delta`, keeping its place and the others unchanged, and the total moves by `delta`; the entry is spliced out exactly when its new quantity is 0 or less, and the total then drops by its old quantity |
| PerfilLoja.SemEntradaValido | JS/perfil.js:154 | splicing out one entry keeps the cart invariant |
| PerfilLoja.QuantidadeAlteradaValido | JS/perfil.js:152-155 | changing a quantity by any delta keeps the cart invariant |
| PerfilLoja.Removido | JS/perfil.js:160-161 | an index inside the cart removes exactly that entry, keeping the others in order; an index past the end changes nothing; a negative index counts from the end |
| PerfilLoja.RemovidoValido | JS/perfil.js:161 | removing with any index keeps the cart invariant |
| PerfilLoja.SomaRemovido | JS/perfil.js:161 | removing an entry inside the cart lowers the total by its quantity |
| PerfilLoja.MensagemPedido | JS/perfil.js:180-185 | the order text: greeting with the store name, one line per entry, then the total; MensagemTemCadaLinha places each entry's line and MontarMensagem computes it by the loop |
| PerfilLoja.LinhasConcat | JS/perfil.js:181-183 | the item lines of two carts joined are their lines joined |
| PerfilLoja.LinhasAcrescentar | JS/perfil.js:181-183 | one more entry appends exactly its line |
| PerfilLoja.LinhaNaPosicao | JS/perfil.js:181-183 | entry `k`'s line comes after the lines of the entries before it and before those of the entries after it |
| PerfilLoja.MensagemTemCadaLinha | JS/perfil.js:180-185 | the message holds `- nome x quantidade` for every entry, after the header and the lines of the earlier entries |
| PerfilLoja.MontarMensagem | JS/perfil.js:180-185 | the loop builds the header, one line per entry in cart order, and the total line |
| PerfilLoja.Carrinho.constructor | JS/perfil.js:18 | the cart starts empty, with counter 0, and valid |
| PerfilLoja.Carrinho.AtualizarContador | JS/perfil.js:102-106 | the counter becomes the sum of the quantities; the entries are unchanged |
| PerfilLoja.Carrinho.Adicionar | JS/perfil.js:87-100 | the cart becomes the cart with the product added, the counter shows the new total, and a valid cart stays valid with its counter up by exactly 1 |
| PerfilLoja.Carrinho.AlterarQuantidade | JS/perfil.js:151-158 | the cart becomes the cart with the quantity changed, the counter shows the new total, and a valid cart stays valid |
| PerfilLoja.Carrinho.RemoverItem | JS/perfil.js:160-164 | the cart becomes the spliced cart, the counter shows the new total, and a valid cart stays valid |
| PerfilLoja.Carrinho.Finalizar | JS/perfil.js:167-194 | with an empty cart, or a phone that is empty or only white space, nothing is produced and nothing changes; otherwise the order message for the cart as it was (store name defaulting to "sua loja") is produced and the cart and its counter are emptied |

## Left out

- Express, MongoDB and upload plumbing (`dotenv`, `cors`, `mongoose.connect`, `app.listen`, multer and GridFS) is foreign code. Each route is a method or function returning a status and a body.
- Of the `500` responses in the account routes' `catch` blocks, only the registration's rejected date is modelled (`Usuarios.Cadastrar`'s `dataValida` parameter and `DataInvalida`). The `500`s that come from database failures, in registration and in login, are not modelled.
- The user collection is a map from e-mail to account. This stands for `findOne({ email })` and the e-mail's uniqueness in the schema. Two requests registering the same e-mail at once are not modelled.
- The password hook, bcrypt hashing and `compararSenha` are function parameters. The model does not capture their cost factor or salt.
- Usuarios.Cadastrar: whether Mongoose can cast `dataNascimento` to a `Date` is the parameter `dataValida`, not a model of the cast. The stored `dataNascimento` is kept as the body's text, not as the cast date. The schema's `timestamps` are not kept, and its other casts are not modelled. `tipo` is always "usuario" and `fotoPerfil` is absent.
- Request bodies are typed: `nome`, `categoria` and the other text fields are strings, `motoboy` is a boolean and `id` an integer. A JSON body with other types (a number as a name, `null`) is not modelled.
- A store body keeps only the keys of `Campos`. The routes store and echo every other key of a `POST` or `PUT` body as well, and the model does not capture those keys.
- Query parameters are single strings. Express turns a repeated parameter (`?nome=a&nome=b`) into an array, on which `toLowerCase` throws and the route answers 500. `Catalogo.Servidor.GetLojas` does not model that case.
- The image URL fields (`imagem`, `logo` and `banner` of a store, `imagem` of a product) are only rendered by the pages and are not kept in the records.
- The seed's `lat`/`lon` coordinates and the products' prices are floating point and are left out. So are the cart totals and their `toFixed(2)` text, which enters the message as a string parameter.
- `toLowerCase` is modelled on ASCII letters only. Non-ASCII capitals such as "Á" are left as they are.
- `parseInt` is modelled for decimal text. Its `0x` hexadecimal prefix is not modelled.
- Texto.ParseInt: it returns the exact integer the digits write. JavaScript returns the nearest double, which differs above 2^53 (`parseInt("9007199254740993")` is 2^53). Everything that parses a route's `:id` text (`BuscarPorId`, `ProdutosDe`, `AposAtualizar`, `AposExcluir`, and so the routes `GetLoja`, `GetProdutos`, `PutLoja` and `DeleteLoja`) agrees with JavaScript only for ids up to 2^53.
- Texto.ParseIntDigitos, Texto.ParseIntDecimal: stated only for values of magnitude at most 2^53, the range in which `parseInt` is exact.
- Vitrine.HoraDeHHMM, Vitrine.FechaAntesDeAbrir: stated only for hour parts worth at most 2^53, for the same reason.
- Catalogo.ProximoId: it adds 1 exactly. At and beyond 2^53 JavaScript's `+ 1` rounds, so a `PUT` giving the last store the id 2^53 makes the next `POST` reuse that id.
- Catalogo.CriarPreservaCrescentes, Catalogo.CriarEntaoBuscar: stated only while the next id is at most 2^53 in magnitude, because of that rounding.
- Catalogo.Servidor.PostLoja: its promise that increasing ids stay increasing holds only while the next id is at most 2^53 in magnitude, and the id it assigns is exact where JavaScript rounds.
- The WhatsApp URL, `encodeURIComponent` and `window.open` are not modelled. `Carrinho.Finalizar` returns the message text.
- Rendering, alerts, modals, the map, geolocation and the `fetch` calls that load a store and its products are browser UI. `carregarLoja` and `carregarProdutos` are not modelled. The cached store list, the store's phone and its displayed name are parameters.
- `Carrinho.Adicionar` takes the product itself, not the clicked index into `window.produtosLoja`. An index outside that list makes perfil.js throw, and the model does not capture this.
- `Carrinho.AlterarQuantidade` requires an index inside the cart. Outside it, `carrinho[idx].quantidade` throws a `TypeError` in perfil.js, and the model does not capture this. The page only produces indexes of rendered entries.
- Quantities are unbounded integers. JavaScript numbers are exact for counts below 2^53.
- The routes check no credentials and no store ownership, and a `PUT` body may change a store's `id`. The model follows this code. `Catalogo.AtualizarPodeRepetirId` shows that such a `PUT` can leave two stores with the same id.

=== FILE: carrinho.dfy ===
/**
 * The shopping cart of a store's page (JS/perfil.js): the `carrinho` array
 * of `{ ...produto, quantidade }` entries, the item counter shown in the
 * header, and the order message sent when the order is finalised.
 */
module PerfilLoja {
  import opened Wrappers
  import opened Texto
  import opened Lojas

  /** A cart entry: a copy of the product with its quantity. */
  datatype Item = Item(produto: Produto, quantidade: int)

  // ---------------------------------------------------------------------
  // The cart as a value

  /** `carrinho.reduce((acc, item) => acc + item.quantidade, 0)`. */
  function Soma(s: seq<Item>): int {
    if s == [] then 0 else s[0].quantidade + Soma(s[1..])
  }

  lemma {:induction false} SomaConcat(a: seq<Item>, b: seq<Item>)
    ensures Soma(a + b) == Soma(a) + Soma(b)
  {
    if a == [] {
      assert a + b == b;
    } else {
      assert (a + b)[0] == a[0];
      assert (a + b)[1..] == a[1..] + b;
      SomaConcat(a[1..], b);
    }
  }

  /** The sum split around entry `i`. */
  lemma SomaPartes(s: seq<Item>, i: int)
    requires 0 <= i < |s|
    ensures Soma(s) == Soma(s[..i]) + s[i].quantidade + Soma(s[i + 1..])
  {
    assert s == s[..i] + s[i..];
    SomaConcat(s[..i], s[i..]);
    assert s[i..][0] == s[i] && s[i..][1..] == s[i + 1..];
  }

  /** Replacing one entry changes the sum by the difference of the quantities. */
  lemma SomaTroca(s: seq<Item>, i: int, x: Item)
    requires 0 <= i < |s|
    ensures Soma(s[i := x]) == Soma(s) - s[i].quantidade + x.quantidade
  {
    var t := s[i := x];
    assert t[..i] == s[..i] && t[i + 1..] == s[i + 1..];
    SomaPartes(s, i);
    SomaPartes(t, i);
  }

  /** Removing one entry lowers the sum by its quantity. */
  lemma SomaSem(s: seq<Item>, i: int)
    requires 0 <= i < |s|
    ensures Soma(s[..i] + s[i + 1..]) == Soma(s) - s[i].quantidade
  {
    SomaPartes(s, i);
    SomaConcat(s[..i], s[i + 1..]);
  }

  /** No two entries share a product name. */
  predicate NomesDistintos(s: seq<Item>) {
    forall i, j :: 0 <= i < j < |s| ==> s[i].produto.nome != s[j].produto.nome
  }

  /** The cart invariant: names are distinct and every quantity is at least 1. */
  predicate CarrinhoValido(s: seq<Item>) {
    NomesDistintos(s) && forall k :: 0 <= k < |s| ==> s[k].quantidade >= 1
  }

  /** `carrinho.find(item => item.nome === nome)`: the first entry with that name. */
  function IndicePorNome(s: seq<Item>, nome: string): (r: Option<nat>)
    ensures r.Some? ==> r.value < |s| && s[r.value].produto.nome == nome
                        && forall k :: 0 <= k < r.value ==> s[k].produto.nome != nome
    ensures r.None? <==> forall k :: 0 <= k < |s| ==> s[k].produto.nome != nome
  {
    if s == [] then None
    else if s[0].produto.nome == nome then Some(0)
    else match IndicePorNome(s[1..], nome)
      case None => None
      case Some(i) => Some(i + 1)
  }

  /** `adicionarAoCarrinho`: an entry with the product's name gets one more
      unit; otherwise a copy of the product with quantity 1 goes at the end. */
  function Adicionado(s: seq<Item>, p: Produto): (r: seq<Item>)
    ensures IndicePorNome(s, p.nome).Some? ==>
              var i := IndicePorNome(s, p.nome).value;
              && |r| == |s|
              && r[i] == Item(s[i].produto, s[i].quantidade + 1)
              && forall k :: 0 <= k < |s| && k != i ==> r[k] == s[k]
    ensures IndicePorNome(s, p.nome).None? ==> r == s + [Item(p, 1)]
    ensures Soma(r) == Soma(s) + 1
  {
    match IndicePorNome(s, p.nome)
    case Some(i) =>
      SomaTroca(s, i, Item(s[i].produto, s[i].quantidade + 1));
      s[i := Item(s[i].produto, s[i].quantidade + 1)]
    case None =>
      SomaConcat(s, [Item(p, 1)]);
      s + [Item(p, 1)]
  }

  /** Adding keeps the cart invariant. */
  lemma AdicionadoValido(s: seq<Item>, p: Produto)
    requires CarrinhoValido(s)
    ensures CarrinhoValido(Adicionado(s, p))
  {
  }

  /** `alterarQuantidade(idx, delta)`: the entry's quantity moves by `delta`
      and the entry is spliced out when it drops to 0 or below. */
  function QuantidadeAlterada(s: seq<Item>, idx: int, delta: int): (r: seq<Item>)
    requires 0 <= idx < |s|
    ensures s[idx].quantidade + delta <= 0 ==>
              r == s[..idx] + s[idx + 1..] && Soma(r) == Soma(s) - s[idx].quantidade
    ensures s[idx].quantidade + delta > 0 ==>
              && |r| == |s|
              && r[idx] == Item(s[idx].produto, s[idx].quantidade + delta)
              && (forall k :: 0 <= k < |s| && k != idx ==> r[k] == s[k])
              && Soma(r) == Soma(s) + delta
  {
    var q := s[idx].quantidade + delta;
    if q <= 0 then
      SomaSem(s, idx);
      s[..idx] + s[idx + 1..]
    else
      SomaTroca(s, idx, Item(s[idx].produto, q));
      s[idx := Item(s[idx].produto, q)]
  }

  /** Splicing one entry out keeps the invariant. */
  lemma SemEntradaValido(s: seq<Item>, i: int)
    requires CarrinhoValido(s)
    requires 0 <= i < |s|
    ensures CarrinhoValido(s[..i] + s[i + 1..])
  {
    var r := s[..i] + s[i + 1..];
    forall a, b | 0 <= a < b < |r| ensures r[a].produto.nome != r[b].produto.nome {
      var a', b' := if a < i then a else a + 1, if b < i then b else b + 1;
      assert r[a] == s[a'] && r[b] == s[b'];
    }
    forall k | 0 <= k < |r| ensures r[k].quantidade >= 1 {
      assert r[k] == s[if k < i then k else k + 1];
    }
  }

  /** Changing a quantity keeps the invariant, whatever the delta. */
  lemma QuantidadeAlteradaValido(s: seq<Item>, idx: int, delta: int)
    requires CarrinhoValido(s)
    requires 0 <= idx < |s|
    ensures CarrinhoValido(QuantidadeAlterada(s, idx, delta))
  {
    if s[idx].quantidade + delta <= 0 {
      SemEntradaValido(s, idx);
    }
  }

  /** The position `Array.prototype.splice` starts at for `start` in an array
      of length `n`: counted from the end when negative, clamped to `0..n`. */
  function InicioSplice(start: int, n: nat): (r: nat)
    ensures r <= n
  {
    if start < 0 then (if n + start < 0 then 0 else n + start)
    else if start > n then n
    else start
  }

  /** `carrinho.splice(idx, 1)` as `removerItem` does it. */
  function Removido(s: seq<Item>, idx: int): (r: seq<Item>)
    ensures 0 <= idx < |s| ==> r == s[..idx] + s[idx + 1..]
    ensures idx >= |s| ==> r == s
    ensures -|s| <= idx < 0 ==> r == s[..|s| + idx] + s[|s| + idx + 1..]
    ensures idx < -|s| && s != [] ==> r == s[1..]
    ensures |r| == if s == [] || idx >= |s| then |s| else |s| - 1
  {
    var i := InicioSplice(idx, |s|);
    if i < |s| then s[..i] + s[i + 1..] else s
  }

  /** Removing keeps the invariant. */
  lemma RemovidoValido(s: seq<Item>, idx: int)
    requires CarrinhoValido(s)
    ensures CarrinhoValido(Removido(s, idx))
  {
    var i := InicioSplice(idx, |s|);
    if i < |s| {
      SemEntradaValido(s, i);
    }
  }

  /** Removing an entry in range lowers the sum by its quantity. */
  lemma SomaRemovido(s: seq<Item>, idx: int)
    requires 0 <= idx < |s|
    ensures Soma(Removido(s, idx)) == Soma(s) - s[idx].quantidade
  {
    SomaSem(s, idx);
  }

  /** In a valid cart every entry counts at least once. */
  lemma {:induction false} SomaValido(s: seq<Item>)
    requires forall k :: 0 <= k < |s| ==> s[k].quantidade >= 1
    ensures Soma(s) >= |s|
  {
    if s != [] {
      SomaValido(s[1..]);
    }
  }

  // ---------------------------------------------------------------------
  // The order message

  function Cabecalho(nomeLoja: string): string {
    "Olá " + nomeLoja + "! Gostaria de fazer o pedido:\n\n"
  }

  /** `- ${item.nome} x ${item.quantidade}\n`. */
  function LinhaItem(item: Item): string {
    "- " + item.produto.nome + " x " + Decimal(item.quantidade) + "\n"
  }

  /** The item lines, in cart order. */
  function Linhas(s: seq<Item>): string {
    if s == [] then "" else LinhaItem(s[0]) + Linhas(s[1..])
  }

  /** The closing line; the total's text (`toFixed(2)`) is a parameter. */
  function Rodape(totalTexto: string): string {
    "\nTotal: R$ " + totalTexto
  }

  function MensagemPedido(nomeLoja: string, s: seq<Item>, totalTexto: string): string {
    Cabecalho(nomeLoja) + Linhas(s) + Rodape(totalTexto)
  }

  lemma {:induction false} LinhasConcat(a: seq<Item>, b: seq<Item>)
    ensures Linhas(a + b) == Linhas(a) + Linhas(b)
  {
    if a == [] {
      assert a + b == b;
    } else {
      var ab := a + b;
      assert ab[0] == a[0];
      assert ab[1..] == a[1..] + b;
      LinhasConcat(a[1..], b);
    }
  }

  lemma LinhaUnica(x: Item)
    ensures Linhas([x]) == LinhaItem(x)
  {
    assert [x][1..] == [];
  }

  /** Entry `k`'s line sits between the lines of the entries before it and
      the lines of the entries after it. */
  lemma LinhaNaPosicao(s: seq<Item>, k: int)
    requires 0 <= k < |s|
    ensures Linhas(s) == Linhas(s[..k]) + LinhaItem(s[k]) + Linhas(s[k + 1..])
  {
    assert s == s[..k] + s[k..];
    LinhasConcat(s[..k], s[k..]);
    assert s[k..][0] == s[k] && s[k..][1..] == s[k + 1..];
  }

  lemma Associar(a: string, b: string, c: string)
    ensures (a + b) + c == a + (b + c)
  {
  }

  lemma Reagrupar(c: string, x: string, l: string, y: string, r: string)
    ensures c + (x + l + y) + r == (c + x) + l + (y + r)
  {
  }

  /** The message holds, at a known place, the line of every entry. */
  lemma MensagemTemCadaLinha(nomeLoja: string, s: seq<Item>, totalTexto: string, k: int)
    requires 0 <= k < |s|
    ensures OcorreEm(MensagemPedido(nomeLoja, s, totalTexto), LinhaItem(s[k]),
                     |Cabecalho(nomeLoja)| + |Linhas(s[..k])|)
  {
    var c, x, l, y, r := Cabecalho(nomeLoja), Linhas(s[..k]), LinhaItem(s[k]),
                         Linhas(s[k + 1..]), Rodape(totalTexto);
    LinhaNaPosicao(s, k);
    assert MensagemPedido(nomeLoja, s, totalTexto) == c + (x + l + y) + r;
    Reagrupar(c, x, l, y, r);
    OcorreNoMeio(c + x, l, y + r);
  }

  /** Extending the entries by one appends that entry's line. */
  lemma LinhasAcrescentar(s: seq<Item>, i: int)
    requires 0 <= i < |s|
    ensures Linhas(s[..i + 1]) == Linhas(s[..i]) + LinhaItem(s[i])
  {
    assert s[..i + 1] == s[..i] + [s[i]];
    LinhasConcat(s[..i], [s[i]]);
    LinhaUnica(s[i]);
  }

  /** The `forEach` that appends one line per entry to the header. */
  method MontarMensagem(nomeLoja: string, s: seq<Item>, totalTexto: string) returns (m: string)
    ensures m == MensagemPedido(nomeLoja, s, totalTexto)
  {
    m := Cabecalho(nomeLoja);
    var i := 0;
    while i < |s|
      invariant 0 <= i <= |s|
      invariant m == Cabecalho(nomeLoja) + Linhas(s[..i])
    {
      LinhasAcrescentar(s, i);
      Associar(Cabecalho(nomeLoja), Linhas(s[..i]), LinhaItem(s[i]));
      m := m + LinhaItem(s[i]);
      i := i + 1;
    }
    assert s[..i] == s;
    m := m + Rodape(totalTexto);
  }

  // ---------------------------------------------------------------------
  // The cart as the page keeps it

  class Carrinho {
    /** `carrinho`. */
    var itens: seq<Item>
    /** The number shown in `#contador-carrinho`. */
    var contador: int

    ghost predicate Valido()
      reads this
    {
      CarrinhoValido(itens) && contador == Soma(itens)
    }

    constructor()
      ensures itens == [] && contador == 0
      ensures Valido()
    {
      itens := [];
      contador := 0;
    }

    /** `atualizarContador`. */
    method AtualizarContador()
      modifies this
      ensures itens == old(itens)
      ensures contador == Soma(itens)
    {
      contador := Soma(itens);
    }

    /** `adicionarAoCarrinho` for the product at the clicked index. */
    method Adicionar(p: Produto)
      modifies this
      ensures itens == Adicionado(old(itens), p)
      ensures contador == Soma(itens)
      ensures old(Valido()) ==> Valido() && contador == old(contador) + 1
    {
      var existente := IndicePorNome(itens, p.nome);
      if existente.Some? {
        var i := existente.value;
        itens := itens[i := Item(itens[i].produto, itens[i].quantidade + 1)];
      } else {
        itens := itens + [Item(p, 1)];
      }
      AtualizarContador();
      if old(Valido()) {
        AdicionadoValido(old(itens), p);
      }
    }

    /** `alterarQuantidade(idx, delta)`. */
    method AlterarQuantidade(idx: int, delta: int)
      requires 0 <= idx < |itens|
      modifies this
      ensures itens == QuantidadeAlterada(old(itens), idx, delta)
      ensures contador == Soma(itens)
      ensures old(Valido()) ==> Valido()
    {
      var q := itens[idx].quantidade + delta;
      itens := itens[idx := Item(itens[idx].produto, q)];
      if itens[idx].quantidade <= 0 {
        itens := itens[..idx] + itens[idx + 1..];
      }
      AtualizarContador();
      if old(Valido()) {
        QuantidadeAlteradaValido(old(itens), idx, delta);
      }
    }

    /** `removerItem(idx)`. */
    method RemoverItem(idx: int)
      modifies this
      ensures itens == Removido(old(itens), idx)
      ensures contador == Soma(itens)
      ensures old(Valido()) ==> Valido()
    {
      var i := InicioSplice(idx, |itens|);
      if i < |itens| {
        itens := itens[..i] + itens[i + 1..];
      }
      AtualizarContador();
      if old(Valido()) {
        RemovidoValido(old(itens), idx);
      }
    }

    /** The cart part of `finalizarPedido`: with an empty cart, or a phone that
        is empty or only white space, nothing happens; otherwise the order
        message is produced and the cart is emptied. `nomeExibido` is the
        page's store-name text. */
    method Finalizar(telefone: string, nomeExibido: string, totalTexto: string)
      returns (mensagem: Option<string>)
      modifies this
      ensures old(itens) == [] || Aparar(telefone) == [] ==> mensagem.None? && unchanged(this)
      ensures old(itens) != [] && Aparar(telefone) != [] ==>
                && mensagem == Some(MensagemPedido(if nomeExibido == "" then "sua loja" else nomeExibido,
                                                   old(itens), totalTexto))
                && itens == [] && contador == 0
      ensures old(Valido()) ==> Valido()
    {
      if itens == [] {
        return None;
      }
      if Aparar(telefone) == [] {
        return None;
      }
      var nomeLoja := if nomeExibido == "" then "sua loja" else nomeExibido;
      var m := MontarMensagem(nomeLoja, itens, totalTexto);
      mensagem := Some(m);
      itens := [];
      AtualizarContador();
    }
  }
}

=== FILE: catalogo.dfy ===
/**
 * The store routes of JS/server.js over the module-level `lojas` array:
 * listing with filters, lookup by id, the product list of an id, creation,
 * shallow-merge update and deletion.
 */
module Catalogo {
  import opened Wrappers
  import opened Texto
  import opened Sequencias
  import opened Lojas

  /** The JSON a route answers with. */
  datatype Corpo =
    | ListaLojas(lojas: seq<Loja>)
    | UmaLoja(loja: Loja)
    | ListaProdutos(produtos: seq<Produto>)
    | Erro(erro: string)
    | Mensagem(mensagem: string)

  datatype Resposta = Resposta(status: int, corpo: Corpo)

  const NaoEncontrada := "Loja não encontrada."
  const SemNomeOuCategoria := "Nome e categoria são obrigatórios."
  const Removida := "Loja removida com sucesso."

  // ---------------------------------------------------------------------
  // Listing

  /** The category filter of `GET /lojas`: absent or empty imposes nothing,
      otherwise case-insensitive equality. */
  predicate CategoriaConfere(filtro: Option<string>, l: Loja) {
    !Preenchido(filtro) || Minusculas(l.categoria) == Minusculas(filtro.value)
  }

  /** The name filter of `GET /lojas`: absent or empty imposes nothing,
      otherwise case-insensitive substring. */
  predicate NomeConfere(filtro: Option<string>, l: Loja) {
    !Preenchido(filtro) || Contem(Minusculas(l.nome), Minusculas(filtro.value))
  }

  predicate ConfereListagem(categoria: Option<string>, nome: Option<string>, l: Loja) {
    CategoriaConfere(categoria, l) && NomeConfere(nome, l)
  }

  function FiltroCategoria(filtro: string): Loja -> bool {
    (l: Loja) => Minusculas(l.categoria) == Minusculas(filtro)
  }

  function FiltroNome(filtro: string): Loja -> bool {
    (l: Loja) => Contem(Minusculas(l.nome), Minusculas(filtro))
  }

  function FiltroListagem(categoria: Option<string>, nome: Option<string>): Loja -> bool {
    (l: Loja) => ConfereListagem(categoria, nome, l)
  }

  /** `GET /lojas`, as the route computes it: the category filter first, then
      the name filter on what is left. */
  function Listar(lojas: seq<Loja>, categoria: Option<string>, nome: Option<string>): (r: seq<Loja>)
    ensures |r| <= |lojas|
    ensures forall l :: l in r <==> l in lojas && ConfereListagem(categoria, nome, l)
  {
    var porCategoria :=
      if Preenchido(categoria)
      then Filtrar(lojas, FiltroCategoria(categoria.value))
      else lojas;
    if Preenchido(nome)
    then Filtrar(porCategoria, FiltroNome(nome.value))
    else porCategoria
  }

  /** The two filters in a row are one filter by their conjunction. */
  lemma ListarUmaPassada(lojas: seq<Loja>, categoria: Option<string>, nome: Option<string>)
    ensures Listar(lojas, categoria, nome) == Filtrar(lojas, FiltroListagem(categoria, nome))
  {
    var pc := l => CategoriaConfere(categoria, l);
    var pn := l => NomeConfere(nome, l);
    var porCategoria := if Preenchido(categoria) then Filtrar(lojas, FiltroCategoria(categoria.value)) else lojas;
    if Preenchido(categoria) {
      FiltrarExtensional(lojas, FiltroCategoria(categoria.value), pc);
    } else {
      FiltrarTodos(lojas, pc);
    }
    if Preenchido(nome) {
      FiltrarExtensional(porCategoria, FiltroNome(nome.value), pn);
    } else {
      FiltrarTodos(porCategoria, pn);
    }
    FiltrarFiltrar(lojas, pc, pn, FiltroListagem(categoria, nome));
  }

  /** The listing is the order-preserving subsequence of exactly the stores
      that pass both filters. */
  lemma ListarExato(lojas: seq<Loja>, categoria: Option<string>, nome: Option<string>)
    returns (idx: seq<int>)
    ensures SelecaoOrdenada(Listar(lojas, categoria, nome), lojas, FiltroListagem(categoria, nome), idx)
  {
    ListarUmaPassada(lojas, categoria, nome);
    idx := FiltrarSelecao(lojas, FiltroListagem(categoria, nome));
  }

  /** With no filter the listing is the whole table. */
  lemma ListarSemFiltro(lojas: seq<Loja>)
    ensures Listar(lojas, None, Some("")) == lojas
  {
  }

  // ---------------------------------------------------------------------
  // Lookup by id

  /** Position `i` holds the first store with id `id`. */
  predicate PrimeiraComId(lojas: seq<Loja>, id: int, i: int) {
    0 <= i < |lojas| && lojas[i].id == id && forall j :: 0 <= j < i ==> lojas[j].id != id
  }

  /** `lojas.findIndex(l => l.id === id)`, with -1 as `None`. */
  function IndicePorId(lojas: seq<Loja>, id: int): (r: Option<nat>)
    ensures r.Some? ==> PrimeiraComId(lojas, id, r.value)
    ensures r.None? <==> forall j :: 0 <= j < |lojas| ==> lojas[j].id != id
  {
    if lojas == [] then None
    else if lojas[0].id == id then Some(0)
    else match IndicePorId(lojas[1..], id)
      case None => None
      case Some(i) => Some(i + 1)
  }

  /** `GET /lojas/:id`: the first store whose id equals the parsed parameter. */
  function BuscarPorId(lojas: seq<Loja>, param: string): (r: Option<Loja>)
    ensures r.Some? <==> ParseInt(param).Some? && exists i :: PrimeiraComId(lojas, ParseInt(param).value, i)
    ensures r.Some? ==> exists i :: PrimeiraComId(lojas, ParseInt(param).value, i) && r.value == lojas[i]
  {
    match ParseInt(param)
    case None => None
    case Some(id) =>
      match IndicePorId(lojas, id)
      case None => None
      case Some(i) => Some(lojas[i])
  }

  /** `GET /lojas/:id/produtos`: the list kept under the parsed id, else none. */
  function ProdutosDe(param: string): (r: seq<Produto>)
    ensures r != [] ==> ParseInt(param).Some? && ParseInt(param).value in ProdutosIniciais()
  {
    match ParseInt(param)
    case Some(id) => if id in ProdutosIniciais() then ProdutosIniciais()[id] else []
    case None => []
  }

  /** Only the first two seed stores have products. */
  lemma ProdutosSoDasDuasPrimeiras(param: string)
    ensures ProdutosDe(param) != [] ==> ParseInt(param) == Some(1) || ParseInt(param) == Some(2)
    ensures ParseInt(param) == Some(1) ==> |ProdutosDe(param)| == 3
  {
  }

  // ---------------------------------------------------------------------
  // Creation

  /** `lojas.length ? lojas[lojas.length - 1].id + 1 : 1`. */
  function ProximoId(lojas: seq<Loja>): (r: int)
    ensures IdsCrescentes(lojas) && Exato(r) ==> forall j :: 0 <= j < |lojas| ==> lojas[j].id < r
  {
    if |lojas| > 0 then lojas[|lojas| - 1].id + 1 else 1
  }

  /** The body `POST /lojas` accepts: truthy `nome` and `categoria`. */
  predicate CorpoValido(c: Campos) {
    Preenchido(c.nome) && Preenchido(c.categoria)
  }

  /** The table after an accepted `POST /lojas`. */
  function AposCriar(lojas: seq<Loja>, c: Campos): (r: seq<Loja>)
    requires CorpoValido(c)
    ensures |r| == |lojas| + 1 && r[..|lojas|] == lojas
    ensures r[|lojas|].id == ProximoId(lojas) && r[|lojas|].nome == c.nome.value
  {
    lojas + [NovaLoja(c, ProximoId(lojas))]
  }

  /** Ids strictly increase along the table (the seed's shape). */
  predicate IdsCrescentes(lojas: seq<Loja>) {
    forall i, j :: 0 <= i < j < |lojas| ==> lojas[i].id < lojas[j].id
  }

  lemma SeedCrescente()
    ensures IdsCrescentes(LojasIniciais())
  {
  }

  /** While ids increase along the table and the next id is one JavaScript
      computes exactly, the next id is above every id in it, and creating a
      store keeps them increasing. */
  lemma CriarPreservaCrescentes(lojas: seq<Loja>, c: Campos)
    requires CorpoValido(c)
    requires IdsCrescentes(lojas)
    requires Exato(ProximoId(lojas))
    ensures forall j :: 0 <= j < |lojas| ==> lojas[j].id < ProximoId(lojas)
    ensures IdsCrescentes(AposCriar(lojas, c))
  {
    var s := AposCriar(lojas, c);
    forall i, j | 0 <= i < j < |s| ensures s[i].id < s[j].id {
      if j == |lojas| && i < |lojas| - 1 {
        assert lojas[i].id < lojas[|lojas| - 1].id;
      }
    }
  }

  /** A store just created is what `GET /lojas/:id` finds under its new id. */
  lemma CriarEntaoBuscar(lojas: seq<Loja>, c: Campos)
    requires CorpoValido(c)
    requires IdsCrescentes(lojas)
    requires Exato(ProximoId(lojas))
    ensures BuscarPorId(AposCriar(lojas, c), Decimal(ProximoId(lojas)))
            == Some(NovaLoja(c, ProximoId(lojas)))
  {
    var n := ProximoId(lojas);
    ParseIntDecimal(n);
    CriarPreservaCrescentes(lojas, c);
    var s := AposCriar(lojas, c);
    assert PrimeiraComId(s, n, |lojas|);
  }

  // ---------------------------------------------------------------------
  // Update

  /** The table after `PUT /lojas/:id`: only the first store with the parsed
      id is replaced by its merge with the body; `None` is the 404 case. */
  function AposAtualizar(lojas: seq<Loja>, param: string, c: Campos): (r: Option<seq<Loja>>)
    ensures r.None? <==> BuscarPorId(lojas, param).None?
    ensures r.Some? ==> |r.value| == |lojas|
  {
    match ParseInt(param)
    case None => None
    case Some(id) =>
      match IndicePorId(lojas, id)
      case None => None
      case Some(i) => Some(lojas[i := Mesclar(lojas[i], c)])
  }

  /** An update changes one entry: the first with the id, merged with the
      body; every other entry stays where it was. */
  lemma AtualizarSoUmaEntrada(lojas: seq<Loja>, param: string, c: Campos)
    requires AposAtualizar(lojas, param, c).Some?
    ensures exists i :: PrimeiraComId(lojas, ParseInt(param).value, i) &&
                        AposAtualizar(lojas, param, c).value[i] == Mesclar(lojas[i], c) &&
                        forall j :: 0 <= j < |lojas| && j != i ==> AposAtualizar(lojas, param, c).value[j] == lojas[j]
  {
    var i := IndicePorId(lojas, ParseInt(param).value).value;
    assert PrimeiraComId(lojas, ParseInt(param).value, i);
  }

  /** Without an `id` key in the body, the updated store is still the one
      found under that id. */
  lemma AtualizarEntaoBuscar(lojas: seq<Loja>, param: string, c: Campos)
    requires c.id.None?
    requires BuscarPorId(lojas, param).Some?
    ensures AposAtualizar(lojas, param, c).Some?
    ensures BuscarPorId(AposAtualizar(lojas, param, c).value, param)
            == Some(Mesclar(BuscarPorId(lojas, param).value, c))
  {
    var id := ParseInt(param).value;
    var i := IndicePorId(lojas, id).value;
    var s := AposAtualizar(lojas, param, c).value;
    assert PrimeiraComId(s, id, i);
    assert IndicePorId(s, id) == Some(i) by {
      var k := IndicePorId(s, id);
      assert k.Some?;
      assert PrimeiraComId(s, id, k.value);
    }
  }

  /** Without an `id` key in the body, ids keep increasing. */
  lemma AtualizarPreservaCrescentes(lojas: seq<Loja>, param: string, c: Campos)
    requires c.id.None?
    requires IdsCrescentes(lojas)
    requires AposAtualizar(lojas, param, c).Some?
    ensures IdsCrescentes(AposAtualizar(lojas, param, c).value)
  {
  }

  /** The body may carry `id` and overwrite it: giving a store the id of
      another store leaves two stores with that id, and ids no longer increase. */
  lemma AtualizarPodeRepetirId(lojas: seq<Loja>, param: string, c: Campos, j: int)
    requires AposAtualizar(lojas, param, c).Some?
    requires c.id.Some?
    requires 0 <= j < |lojas| && lojas[j].id == c.id.value && c.id.value != ParseInt(param).value
    ensures exists i :: 0 <= i < |lojas| && i != j &&
                        AposAtualizar(lojas, param, c).value[i].id == c.id.value &&
                        AposAtualizar(lojas, param, c).value[j].id == c.id.value
    ensures !IdsCrescentes(AposAtualizar(lojas, param, c).value)
  {
    var i := IndicePorId(lojas, ParseInt(param).value).value;
    var s := AposAtualizar(lojas, param, c).value;
    assert s[i].id == c.id.value && s[j].id == c.id.value;
    assert i != j;
  }

  // ---------------------------------------------------------------------
  // Deletion

  function IdDiferente(id: int): Loja -> bool {
    (l: Loja) => l.id != id
  }

  /** The table after `DELETE /lojas/:id`: every store with the parsed id is
      gone; an unparsable id (NaN) differs from every id and removes nothing. */
  function AposExcluir(lojas: seq<Loja>, param: string): (r: seq<Loja>)
    ensures |r| <= |lojas|
    ensures forall l :: l in r ==> l in lojas
    ensures ParseInt(param).Some? ==> forall l :: l in r ==> l.id != ParseInt(param).value
    ensures ParseInt(param).None? ==> r == lojas
  {
    match ParseInt(param)
    case None => lojas
    case Some(id) => Filtrar(lojas, IdDiferente(id))
  }

  /** What survives a delete: the stores whose id differs from the parameter. */
  function FiltroSobrevive(param: string): Loja -> bool {
    (l: Loja) => ParseInt(param).None? || l.id != ParseInt(param).value
  }

  /** Deletion keeps, in order, exactly the stores with another id. */
  lemma ExcluirExato(lojas: seq<Loja>, param: string) returns (idx: seq<int>)
    ensures AposExcluir(lojas, param) == Filtrar(lojas, FiltroSobrevive(param))
    ensures SelecaoOrdenada(AposExcluir(lojas, param), lojas, FiltroSobrevive(param), idx)
  {
    match ParseInt(param) {
      case None =>
        FiltrarTodos(lojas, FiltroSobrevive(param));
      case Some(id) =>
        FiltrarExtensional(lojas, IdDiferente(id), FiltroSobrevive(param));
    }
    idx := FiltrarSelecao(lojas, FiltroSobrevive(param));
  }

  /** Deleting twice is deleting once. */
  lemma ExcluirIdempotente(lojas: seq<Loja>, param: string)
    ensures AposExcluir(AposExcluir(lojas, param), param) == AposExcluir(lojas, param)
  {
    match ParseInt(param)
    case None =>
    case Some(id) => FiltrarIdempotente(lojas, IdDiferente(id));
  }

  /** After a delete, the id is no longer found. */
  lemma ExcluirEntaoBuscar(lojas: seq<Loja>, param: string)
    ensures BuscarPorId(AposExcluir(lojas, param), param).None?
  {
    var s := AposExcluir(lojas, param);
    if ParseInt(param).Some? {
      forall j | 0 <= j < |s| ensures s[j].id != ParseInt(param).value {
        assert s[j] in s;
      }
    }
  }

  // ---------------------------------------------------------------------
  // The server's table

  /** The module-level `lojas` array and the routes that read and change it. */
  class Servidor {
    var lojas: seq<Loja>

    constructor ()
      ensures lojas == LojasIniciais()
    {
      lojas := LojasIniciais();
    }

    /** `GET /lojas?categoria=…&nome=…` */
    method GetLojas(categoria: Option<string>, nome: Option<string>) returns (r: Resposta)
      ensures r.status == 200 && r.corpo.ListaLojas?
      ensures r.corpo.lojas == Filtrar(lojas, FiltroListagem(categoria, nome))
      ensures exists idx :: SelecaoOrdenada(r.corpo.lojas, lojas, FiltroListagem(categoria, nome), idx)
      ensures !Preenchido(categoria) && !Preenchido(nome) ==> r.corpo.lojas == lojas
    {
      r := Resposta(200, ListaLojas(Listar(lojas, categoria, nome)));
      var idx := ListarExato(lojas, categoria, nome);
      ListarUmaPassada(lojas, categoria, nome);
    }

    /** `GET /lojas/:id` */
    method GetLoja(param: string) returns (r: Resposta)
      ensures r.status == 200 || r.status == 404
      ensures r.status == 404 <==>
                ParseInt(param).None? || forall j :: 0 <= j < |lojas| ==> lojas[j].id != ParseInt(param).value
      ensures r.status == 404 ==> r.corpo == Erro(NaoEncontrada)
      ensures r.status == 200 ==>
                && r.corpo.UmaLoja?
                && exists i :: PrimeiraComId(lojas, ParseInt(param).value, i) && r.corpo.loja == lojas[i]
    {
      match BuscarPorId(lojas, param)
      case None =>
        r := Resposta(404, Erro(NaoEncontrada));
      case Some(l) =>
        r := Resposta(200, UmaLoja(l));
    }

    /** `GET /lojas/:id/produtos`: never fails. */
    method GetProdutos(param: string) returns (r: Resposta)
      ensures r.status == 200 && r.corpo.ListaProdutos?
      ensures ParseInt(param).Some? && ParseInt(param).value in ProdutosIniciais() ==>
                r.corpo.produtos == ProdutosIniciais()[ParseInt(param).value]
      ensures ParseInt(param).None? || ParseInt(param).value !in ProdutosIniciais() ==>
                r.corpo.produtos == []
    {
      r := Resposta(200, ListaProdutos(ProdutosDe(param)));
    }

    /** `POST /lojas` */
    method PostLoja(c: Campos) returns (r: Resposta)
      modifies this
      ensures !CorpoValido(c) ==> r == Resposta(400, Erro(SemNomeOuCategoria)) && lojas == old(lojas)
      ensures CorpoValido(c) ==>
                && lojas == AposCriar(old(lojas), c)
                && r == Resposta(201, UmaLoja(lojas[|lojas| - 1]))
                && r.corpo.loja.id == ProximoId(old(lojas))
      ensures old(IdsCrescentes(lojas)) && Exato(ProximoId(old(lojas))) ==> IdsCrescentes(lojas)
    {
      if !CorpoValido(c) {
        return Resposta(400, Erro(SemNomeOuCategoria));
      }
      var nova := NovaLoja(c, ProximoId(lojas));
      if IdsCrescentes(lojas) && Exato(ProximoId(lojas)) {
        CriarPreservaCrescentes(lojas, c);
      }
      lojas := lojas + [nova];
      r := Resposta(201, UmaLoja(nova));
    }

    /** `PUT /lojas/:id`: no credential or ownership check is made. */
    method PutLoja(param: string, c: Campos) returns (r: Resposta)
      modifies this
      ensures BuscarPorId(old(lojas), param).None? ==>
                r == Resposta(404, Erro(NaoEncontrada)) && lojas == old(lojas)
      ensures BuscarPorId(old(lojas), param).Some? ==>
                && Some(lojas) == AposAtualizar(old(lojas), param, c)
                && r == Resposta(200, UmaLoja(Mesclar(BuscarPorId(old(lojas), param).value, c)))
    {
      var id := ParseInt(param);
      if id.None? {
        return Resposta(404, Erro(NaoEncontrada));
      }
      var indice := IndicePorId(lojas, id.value);
      if indice.None? {
        return Resposta(404, Erro(NaoEncontrada));
      }
      var i := indice.value;
      lojas := lojas[i := Mesclar(lojas[i], c)];
      r := Resposta(200, UmaLoja(lojas[i]));
    }

    /** `DELETE /lojas/:id`: no credential check; success even when nothing matched. */
    method DeleteLoja(param: string) returns (r: Resposta)
      modifies this
      ensures r == Resposta(200, Mensagem(Removida))
      ensures lojas == AposExcluir(old(lojas), param)
      ensures lojas == Filtrar(old(lojas), FiltroSobrevive(param))
      ensures exists idx :: SelecaoOrdenada(lojas, old(lojas), FiltroSobrevive(param), idx)
    {
      var idx := ExcluirExato(lojas, param);
      lojas := AposExcluir(lojas, param);
      r := Resposta(200, Mensagem(Removida));
    }
  }
}

=== FILE: loja.dfy ===
/**
 * The store record of the in-memory table in JS/server.js, the JSON bodies
 * that create and update it, the seed table and the simulated product lists.
 */
module Lojas {
  import opened Wrappers

  /** A store as the server keeps it. `nome` and `categoria` are always
      present: the seed has them and creation refuses a body without them.
      The seed's `lat`/`lon` coordinates (floating point) and the image URLs
      `imagem`, `logo` and `banner` (only ever rendered) are not kept. */
  datatype Loja = Loja(
    id: int,
    nome: string,
    categoria: string,
    descricao: Option<string>,
    endereco: Option<string>,
    abre: Option<string>,
    fecha: Option<string>,
    motoboy: Option<bool>,
    telefone: Option<string>)

  /** The JSON body of `POST /lojas` and `PUT /lojas/:id`: `Some` for each key
      the body holds. */
  datatype Campos = Campos(
    id: Option<int>,
    nome: Option<string>,
    categoria: Option<string>,
    descricao: Option<string>,
    endereco: Option<string>,
    abre: Option<string>,
    fecha: Option<string>,
    motoboy: Option<bool>,
    telefone: Option<string>)

  /** A body with no key at all. */
  const SemCampos := Campos(None, None, None, None, None, None, None, None, None)

  /** JavaScript truthiness of an optional string: present and not empty. */
  predicate Preenchido(o: Option<string>) {
    o.Some? && o.value != ""
  }

  /** The value a body key would give a field, or the field's old value. */
  function Sobrepor<T>(novo: Option<T>, antigo: T): T {
    if novo.Some? then novo.value else antigo
  }

  function SobreporOpcional<T>(novo: Option<T>, antigo: Option<T>): Option<T> {
    if novo.Some? then novo else antigo
  }

  /** `{ ...l, ...c }`: every key present in the body overwrites, every other
      field keeps its value. */
  function Mesclar(l: Loja, c: Campos): (r: Loja)
    ensures c.id.Some? ==> r.id == c.id.value
    ensures c.id.None? ==> r.id == l.id
    ensures c.nome.Some? ==> r.nome == c.nome.value
    ensures c.nome.None? ==> r.nome == l.nome
    ensures c.categoria.Some? ==> r.categoria == c.categoria.value
    ensures c.categoria.None? ==> r.categoria == l.categoria
    ensures c.motoboy.Some? ==> r.motoboy == c.motoboy
    ensures c.motoboy.None? ==> r.motoboy == l.motoboy
    ensures c.descricao.Some? ==> r.descricao == c.descricao
    ensures c.descricao.None? ==> r.descricao == l.descricao
    ensures c.endereco.Some? ==> r.endereco == c.endereco
    ensures c.endereco.None? ==> r.endereco == l.endereco
    ensures c.abre.Some? ==> r.abre == c.abre
    ensures c.abre.None? ==> r.abre == l.abre
    ensures c.fecha.Some? ==> r.fecha == c.fecha
    ensures c.fecha.None? ==> r.fecha == l.fecha
    ensures c.telefone.Some? ==> r.telefone == c.telefone
    ensures c.telefone.None? ==> r.telefone == l.telefone
  {
    Loja(
      Sobrepor(c.id, l.id),
      Sobrepor(c.nome, l.nome),
      Sobrepor(c.categoria, l.categoria),
      SobreporOpcional(c.descricao, l.descricao),
      SobreporOpcional(c.endereco, l.endereco),
      SobreporOpcional(c.abre, l.abre),
      SobreporOpcional(c.fecha, l.fecha),
      SobreporOpcional(c.motoboy, l.motoboy),
      SobreporOpcional(c.telefone, l.telefone))
  }

  /** `{ ...a, ...b }` of two bodies: the keys of `b` win. */
  function Juntar(a: Campos, b: Campos): Campos {
    Campos(
      SobreporOpcional(b.id, a.id),
      SobreporOpcional(b.nome, a.nome),
      SobreporOpcional(b.categoria, a.categoria),
      SobreporOpcional(b.descricao, a.descricao),
      SobreporOpcional(b.endereco, a.endereco),
      SobreporOpcional(b.abre, a.abre),
      SobreporOpcional(b.fecha, a.fecha),
      SobreporOpcional(b.motoboy, a.motoboy),
      SobreporOpcional(b.telefone, a.telefone))
  }

  /** Merging an empty body changes nothing. */
  lemma MesclarVazio(l: Loja)
    ensures Mesclar(l, SemCampos) == l
  {
  }

  /** Merging the same body twice is merging it once. */
  lemma MesclarIdempotente(l: Loja, c: Campos)
    ensures Mesclar(Mesclar(l, c), c) == Mesclar(l, c)
  {
  }

  /** Two updates in a row are one update with the two bodies spread together. */
  lemma MesclarDuasVezes(l: Loja, a: Campos, b: Campos)
    ensures Mesclar(Mesclar(l, a), b) == Mesclar(l, Juntar(a, b))
  {
  }

  /** The record `POST /lojas` stores: the body, with the server's id in
      place of any id the body carried. */
  function NovaLoja(c: Campos, id: int): (r: Loja)
    requires Preenchido(c.nome) && Preenchido(c.categoria)
    ensures r.id == id && r.nome == c.nome.value && r.categoria == c.categoria.value
    ensures r == Mesclar(Loja(id, "", "", None, None, None, None, None, None), c.(id := None))
  {
    Loja(id, c.nome.value, c.categoria.value, c.descricao, c.endereco,
         c.abre, c.fecha, c.motoboy, c.telefone)
  }

  /** A product of a store's simulated catalogue (its price and image URL are left out). */
  datatype Produto = Produto(nome: string, descricao: Option<string>)

  /** The table the server starts with: the four seed stores, in order. */
  function LojasIniciais(): seq<Loja> {
    [Padaria(), Mercadinho(), Farmacia(), Lanchonete()]
  }

  function Padaria(): Loja {
    Loja(1, "Padaria do João", "padaria",
         Some("Pães fresquinhos e bolos caseiros todos os dias."), Some("Rua das Flores, 120"),
         Some("06:00"), Some("20:00"), Some(true), Some("5511999992222"))
  }

  function Mercadinho(): Loja {
    Loja(2, "Mercadinho da Ana", "mercado",
         Some("Tudo o que você precisa sem sair do bairro."), Some("Av. Brasil, 45"),
         Some("08:00"), Some("22:00"), Some(false), Some("5511999992222"))
  }

  function Farmacia(): Loja {
    Loja(3, "Farmácia Popular", "farmacia",
         Some("Remédios e cuidados de saúde com atendimento humanizado."), Some("Rua Central, 99"),
         Some("07:00"), Some("23:00"), Some(true), Some("5511999992222"))
  }

  function Lanchonete(): Loja {
    Loja(4, "Lanchonete Sabor Local", "lanchonete",
         Some("Lanches rápidos e deliciosos feitos com carinho."), Some("Praça das Árvores, 15"),
         Some("10:00"), Some("02:00"), Some(true), Some("5511999998888"))
  }

  /** The simulated product lists, keyed by store id. */
  function ProdutosIniciais(): map<int, seq<Produto>> {
    map[
      1 := [ Produto("Pão Francês", Some("Fresco, crocante e assado na hora.")),
             Produto("Bolo de Fubá", Some("Tradicional, fofinho e com gostinho de infância.")),
             Produto("Sonho", Some("Recheado com creme e polvilhado com açúcar.")) ],
      2 := [ Produto("Arroz 5kg", Some("Arroz branco tipo 1.")),
             Produto("Feijão Carioca 1kg", Some("Feijão tipo 1, grãos selecionados.")),
             Produto("Leite Integral 1L", Some("Leite integral de qualidade.")) ]
    ]
  }
}

=== FILE: sequencias.dfy ===
/**
 * `Array.prototype.filter`: the order-preserving subsequence of the elements
 * that satisfy a predicate, with the facts the store routes and the
 * browser-side filters rely on.
 */
module Sequencias {

  function Filtrar<T>(s: seq<T>, p: T -> bool): (r: seq<T>)
    ensures |r| <= |s|
    ensures forall x :: x in r ==> x in s && p(x)
    ensures forall x :: x in s && p(x) ==> x in r
  {
    if s == [] then [] else (if p(s[0]) then [s[0]] else []) + Filtrar(s[1..], p)
  }

  /** The filter of a concatenation is the concatenation of the filters. */
  lemma {:induction false} FiltrarConcat<T>(a: seq<T>, b: seq<T>, p: T -> bool)
    ensures Filtrar(a + b, p) == Filtrar(a, p) + Filtrar(b, p)
  {
    if a == [] {
      assert a + b == b;
    } else {
      assert (a + b)[1..] == a[1..] + b;
      FiltrarConcat(a[1..], b, p);
    }
  }

  /** `r` is exactly the elements of `s` at the increasing positions `idx`,
      and those positions are exactly the ones whose element satisfies `p`. */
  ghost predicate SelecaoOrdenada<T>(r: seq<T>, s: seq<T>, p: T -> bool, idx: seq<int>) {
    && |idx| == |r|
    && (forall k :: 0 <= k < |idx| ==> 0 <= idx[k] < |s| && r[k] == s[idx[k]])
    && (forall k, l :: 0 <= k < l < |idx| ==> idx[k] < idx[l])
    && (forall i :: 0 <= i < |s| ==> (p(s[i]) <==> i in idx))
  }

  /** The positions of `s` whose element satisfies `p`, in increasing order. */
  ghost function Posicoes<T>(s: seq<T>, p: T -> bool): (idx: seq<int>)
  {
    if s == [] then []
    else
      var resto := Posicoes(s[1..], p);
      (if p(s[0]) then [0] else []) + seq(|resto|, k requires 0 <= k < |resto| => resto[k] + 1)
  }

  /** One step of `PosicoesElementos`: putting the head in front of a
      selection of the tail, with the positions shifted by one. */
  lemma PrefixarSelecao<T>(s: seq<T>, cabeca: bool, resto: seq<int>, rf: seq<T>)
    requires s != []
    requires |resto| == |rf|
    requires forall k :: 0 <= k < |resto| ==> 0 <= resto[k] < |s| - 1 && rf[k] == s[1..][resto[k]]
    ensures |(if cabeca then [0] else []) + seq(|resto|, k requires 0 <= k < |resto| => resto[k] + 1)|
            == |(if cabeca then [s[0]] else []) + rf|
    ensures var idx := (if cabeca then [0] else []) + seq(|resto|, k requires 0 <= k < |resto| => resto[k] + 1);
            var r := (if cabeca then [s[0]] else []) + rf;
            forall k :: 0 <= k < |idx| ==> 0 <= idx[k] < |s| && r[k] == s[idx[k]]
  {
    var desloc := seq(|resto|, k requires 0 <= k < |resto| => resto[k] + 1);
    var c := if cabeca then 1 else 0;
    var idx := (if cabeca then [0] else []) + desloc;
    var r := (if cabeca then [s[0]] else []) + rf;
    forall k | 0 <= k < |idx| ensures 0 <= idx[k] < |s| && r[k] == s[idx[k]] {
      if k >= c {
        assert idx[k] == resto[k - c] + 1;
        assert r[k] == rf[k - c];
      }
    }
  }

  lemma {:induction false} PosicoesElementos<T>(s: seq<T>, p: T -> bool)
    ensures |Posicoes(s, p)| == |Filtrar(s, p)|
    ensures forall k :: 0 <= k < |Posicoes(s, p)| ==>
              0 <= Posicoes(s, p)[k] < |s| && Filtrar(s, p)[k] == s[Posicoes(s, p)[k]]
  {
    if s != [] {
      PosicoesElementos(s[1..], p);
      PrefixarSelecao(s, p(s[0]), Posicoes(s[1..], p), Filtrar(s[1..], p));
    }
  }

  ghost predicate Crescente(idx: seq<int>) {
    (forall k, l :: 0 <= k < l < |idx| ==> idx[k] < idx[l]) &&
    (forall k :: 0 <= k < |idx| ==> 0 <= idx[k])
  }

  lemma Deslocar(resto: seq<int>, comZero: bool)
    requires Crescente(resto)
    ensures Crescente((if comZero then [0] else []) + seq(|resto|, k requires 0 <= k < |resto| => resto[k] + 1))
  {
    var desloc := seq(|resto|, k requires 0 <= k < |resto| => resto[k] + 1);
    var idx := (if comZero then [0] else []) + desloc;
    var c := if comZero then 1 else 0;
    forall k, l | 0 <= k < l < |idx| ensures idx[k] < idx[l] {
      assert idx[l] == desloc[l - c];
      if k >= c {
        assert idx[k] == desloc[k - c];
      }
    }
  }

  lemma {:induction false} PosicoesCrescentes<T>(s: seq<T>, p: T -> bool)
    ensures Crescente(Posicoes(s, p))
  {
    if s != [] {
      PosicoesCrescentes(s[1..], p);
      Deslocar(Posicoes(s[1..], p), p(s[0]));
    }
  }

  lemma {:induction false} PosicoesExatas<T>(s: seq<T>, p: T -> bool)
    ensures forall i :: 0 <= i < |s| ==> (p(s[i]) <==> i in Posicoes(s, p))
  {
    if s != [] {
      PosicoesExatas(s[1..], p);
      PosicoesCrescentes(s[1..], p);
      var resto := Posicoes(s[1..], p);
      var desloc := seq(|resto|, k requires 0 <= k < |resto| => resto[k] + 1);
      var idx := Posicoes(s, p);
      assert idx == (if p(s[0]) then [0] else []) + desloc;
      forall i | 0 <= i < |s| ensures p(s[i]) <==> i in idx {
        if i == 0 {
          assert 0 !in desloc;
        } else {
          assert s[i] == s[1..][i - 1];
          if i - 1 in resto {
            var k :| 0 <= k < |resto| && resto[k] == i - 1;
            assert desloc[k] == i;
          }
          if i in desloc {
            var k :| 0 <= k < |desloc| && desloc[k] == i;
            assert resto[k] == i - 1;
          }
        }
      }
    }
  }

  /** The filter keeps every element that satisfies `p`, drops every one that
      does not, and keeps the survivors in their original order. */
  lemma FiltrarSelecao<T>(s: seq<T>, p: T -> bool) returns (idx: seq<int>)
    ensures SelecaoOrdenada(Filtrar(s, p), s, p, idx)
  {
    idx := Posicoes(s, p);
    PosicoesElementos(s, p);
    PosicoesCrescentes(s, p);
    PosicoesExatas(s, p);
  }

  /** A filter that every element passes changes nothing. */
  lemma {:induction false} FiltrarTodos<T>(s: seq<T>, p: T -> bool)
    requires forall i :: 0 <= i < |s| ==> p(s[i])
    ensures Filtrar(s, p) == s
  {
    if s != [] {
      FiltrarTodos(s[1..], p);
    }
  }

  /** Filtering by `p` and then by `q` is filtering once by their conjunction `pq`. */
  lemma {:induction false} FiltrarFiltrar<T>(s: seq<T>, p: T -> bool, q: T -> bool, pq: T -> bool)
    requires forall i :: 0 <= i < |s| ==> pq(s[i]) == (p(s[i]) && q(s[i]))
    ensures Filtrar(Filtrar(s, p), q) == Filtrar(s, pq)
  {
    if s != [] {
      FiltrarFiltrar(s[1..], p, q, pq);
      FiltrarConcat(if p(s[0]) then [s[0]] else [], Filtrar(s[1..], p), q);
    }
  }

  /** Filters whose predicates agree on the elements give the same result. */
  lemma {:induction false} FiltrarExtensional<T>(s: seq<T>, p: T -> bool, q: T -> bool)
    requires forall i :: 0 <= i < |s| ==> p(s[i]) == q(s[i])
    ensures Filtrar(s, p) == Filtrar(s, q)
  {
    if s != [] {
      FiltrarExtensional(s[1..], p, q);
    }
  }

  /** Filtering a second time by the same predicate changes nothing. */
  lemma FiltrarIdempotente<T>(s: seq<T>, p: T -> bool)
    ensures Filtrar(Filtrar(s, p), p) == Filtrar(s, p)
  {
    FiltrarTodos(Filtrar(s, p), p);
  }
}

=== FILE: texto.dfy ===
/**
 * The string operations of the JavaScript runtime that the application's
 * logic relies on: `\s` and `trim`, `toLowerCase`, `includes`, `split(":")[0]`,
 * `parseInt` and number-to-text conversion in template strings.
 */
module Texto {
  import opened Wrappers

  /** The characters JavaScript treats as white space: matched by `\s` in a
      regular expression and removed by `trim` (WhiteSpace and LineTerminator). */
  predicate EhEspaco(c: char) {
    c == '\t' || c == '\n' || c == '\U{000B}' || c == '\U{000C}' || c == '\r' || c == ' ' ||
    c == '\U{00A0}' || c == '\U{1680}' || ('\U{2000}' <= c <= '\U{200A}') ||
    c == '\U{2028}' || c == '\U{2029}' || c == '\U{202F}' || c == '\U{205F}' ||
    c == '\U{3000}' || c == '\U{FEFF}'
  }

  predicate EhMaiuscula(c: char) {
    'A' <= c <= 'Z'
  }

  /** `toLowerCase` on one character, for the ASCII letters. */
  function MinusculaDe(c: char): (r: char)
    ensures !EhMaiuscula(r)
    ensures EhEspaco(r) == EhEspaco(c)
    ensures !EhMaiuscula(c) ==> r == c
  {
    if EhMaiuscula(c) then (c as int + 32) as char else c
  }

  /** `toLowerCase` on a string: each ASCII capital becomes its small letter,
      every other character stays. */
  function Minusculas(s: string): (r: string)
    ensures |r| == |s|
    ensures forall i :: 0 <= i < |s| ==>
              && (EhMaiuscula(s[i]) ==> r[i] as int == s[i] as int + 32)
              && (!EhMaiuscula(s[i]) ==> r[i] == s[i])
    ensures forall i :: 0 <= i < |r| ==> !EhMaiuscula(r[i])
    ensures forall i :: 0 <= i < |r| ==> EhEspaco(r[i]) == EhEspaco(s[i])
  {
    seq(|s|, i requires 0 <= i < |s| => MinusculaDe(s[i]))
  }

  lemma MinusculasIdempotente(s: string)
    ensures Minusculas(Minusculas(s)) == Minusculas(s)
  {
  }

  /** `t` occurs in `s` starting at position `i`. */
  predicate OcorreEm(s: string, t: string, i: int) {
    0 <= i && i + |t| <= |s| && s[i..i + |t|] == t
  }

  /** `s.includes(t)`, scanning from the left: `t` starts `s` or occurs in
      the rest. It holds exactly when `t` occurs at some position. */
  function Contem(s: string, t: string): (r: bool)
    ensures r <==> exists i | 0 <= i <= |s| - |t| :: OcorreEm(s, t, i)
    decreases |s|
  {
    if |t| > |s| then false
    else if s[..|t|] == t then
      assert OcorreEm(s, t, 0);
      true
    else
      OcorreNoResto(s, t);
      Contem(s[1..], t)
  }

  /** Past the first position, `t` occurs in `s` where it occurs in `s[1..]`,
      one position later. */
  lemma OcorreNoResto(s: string, t: string)
    requires s != []
    ensures forall j | 0 <= j <= |s| - 1 - |t| :: OcorreEm(s[1..], t, j) ==> OcorreEm(s, t, j + 1)
    ensures forall i | 1 <= i <= |s| - |t| :: OcorreEm(s, t, i) ==> OcorreEm(s[1..], t, i - 1)
  {
    forall i | 1 <= i <= |s| - |t| ensures OcorreEm(s, t, i) <==> OcorreEm(s[1..], t, i - 1) {
      var a, b := s[i..i + |t|], s[1..][i - 1..i - 1 + |t|];
      assert forall k | 0 <= k < |t| :: a[k] == s[i + k] == b[k];
      assert a == b;
    }
  }

  /** `t` occurs in `a + t + b` right after `a`. */
  lemma OcorreNoMeio(a: string, t: string, b: string)
    ensures OcorreEm(a + t + b, t, |a|)
  {
    assert (a + t + b)[|a|..|a| + |t|] == t;
  }

  /** Leading white space removed: a suffix of `s` made only by dropping spaces. */
  function SemEspacoInicial(s: string): (r: string)
    ensures |r| <= |s| && r == s[|s| - |r|..]
    ensures forall k :: 0 <= k < |s| - |r| ==> EhEspaco(s[k])
    ensures r != [] ==> !EhEspaco(r[0])
    decreases |s|
  {
    if s != [] && EhEspaco(s[0]) then SemEspacoInicial(s[1..]) else s
  }

  /** Trailing white space removed: a prefix of `s` made only by dropping spaces. */
  function SemEspacoFinal(s: string): (r: string)
    ensures |r| <= |s| && r == s[..|r|]
    ensures forall k :: |r| <= k < |s| ==> EhEspaco(s[k])
    ensures r != [] ==> !EhEspaco(r[|r| - 1])
    decreases |s|
  {
    if s != [] && EhEspaco(s[|s| - 1]) then SemEspacoFinal(s[..|s| - 1]) else s
  }

  /** `s.trim()`: the slice of `s` between its leading and its trailing white space. */
  function Aparar(s: string): (r: string)
    ensures exists i ::
              OcorreEm(s, r, i) &&
              (forall k :: 0 <= k < i ==> EhEspaco(s[k])) &&
              (forall k :: i + |r| <= k < |s| ==> EhEspaco(s[k]))
    ensures r != [] ==> !EhEspaco(r[0]) && !EhEspaco(r[|r| - 1])
  {
    var t := SemEspacoInicial(s);
    var r := SemEspacoFinal(t);
    FatiaDoMeio(s, t, r);
    r
  }

  /** A prefix `r` of a suffix `t` of `s`, with only white space before `t`
      and after `r`, is `s` with white space cut from both ends. */
  lemma FatiaDoMeio(s: string, t: string, r: string)
    requires |t| <= |s| && t == s[|s| - |t|..]
    requires forall k :: 0 <= k < |s| - |t| ==> EhEspaco(s[k])
    requires |r| <= |t| && r == t[..|r|]
    requires forall k :: |r| <= k < |t| ==> EhEspaco(t[k])
    ensures exists i ::
              OcorreEm(s, r, i) &&
              (forall k :: 0 <= k < i ==> EhEspaco(s[k])) &&
              (forall k :: i + |r| <= k < |s| ==> EhEspaco(s[k]))
  {
    var i := |s| - |t|;
    forall k | i + |r| <= k < |s| ensures EhEspaco(s[k]) {
      assert s[k] == t[k - i];
    }
    assert OcorreEm(s, r, i);
  }

  /** A string trims to nothing exactly when every character of it is white space. */
  lemma ApararVazio(s: string)
    ensures Aparar(s) == [] <==> forall k :: 0 <= k < |s| ==> EhEspaco(s[k])
  {
    var t := SemEspacoInicial(s);
    if Aparar(s) == [] {
      assert t == [];
    } else {
      var r := Aparar(s);
      var i :| OcorreEm(s, r, i);
      assert s[i] == r[0];
    }
  }

  /** Trimming commutes with `toLowerCase`, which never turns a space into a
      letter or a letter into a space. */
  lemma {:induction false} SemEspacoInicialMinusculas(s: string)
    ensures SemEspacoInicial(Minusculas(s)) == Minusculas(SemEspacoInicial(s))
    decreases |s|
  {
    if s != [] && EhEspaco(s[0]) {
      assert Minusculas(s)[1..] == Minusculas(s[1..]);
      SemEspacoInicialMinusculas(s[1..]);
    }
  }

  lemma {:induction false} SemEspacoFinalMinusculas(s: string)
    ensures SemEspacoFinal(Minusculas(s)) == Minusculas(SemEspacoFinal(s))
    decreases |s|
  {
    if s != [] && EhEspaco(s[|s| - 1]) {
      assert Minusculas(s)[..|s| - 1] == Minusculas(s[..|s| - 1]);
      SemEspacoFinalMinusculas(s[..|s| - 1]);
    }
  }

  lemma ApararMinusculas(s: string)
    ensures Aparar(Minusculas(s)) == Minusculas(Aparar(s))
  {
    SemEspacoInicialMinusculas(s);
    SemEspacoFinalMinusculas(SemEspacoInicial(s));
  }

  /** The position of the first `c` in `s`, if any (`indexOf`). */
  function IndiceDe(s: string, c: char): (r: Option<nat>)
    ensures r.Some? ==> r.value < |s| && s[r.value] == c && c !in s[..r.value]
    ensures r.None? ==> c !in s
  {
    if s == [] then None
    else if s[0] == c then Some(0)
    else match IndiceDe(s[1..], c)
      case None => None
      case Some(i) => assert s[..i + 1] == [s[0]] + s[1..][..i]; Some(i + 1)
  }

  /** In `a + [c] + resto` with no `c` in `a`, the first `c` is right after `a`. */
  lemma {:induction false} IndiceDeAposPrefixo(a: string, resto: string, c: char)
    requires c !in a
    ensures IndiceDe(a + [c] + resto, c) == Some(|a|)
  {
    if a != [] {
      assert (a + [c] + resto)[1..] == a[1..] + [c] + resto;
      IndiceDeAposPrefixo(a[1..], resto, c);
    }
  }

  /** `s.split(sep)[0]`: the text before the first separator, or all of `s`. */
  function ParteAntesDe(s: string, sep: char): (r: string)
    ensures |r| <= |s| && r == s[..|r|] && sep !in r
    ensures |r| < |s| ==> s[|r|] == sep
  {
    match IndiceDe(s, sep)
    case None => s
    case Some(i) => s[..i]
  }

  predicate EhDigito(c: char) {
    '0' <= c <= '9'
  }

  predicate SoDigitos(s: string) {
    forall k :: 0 <= k < |s| ==> EhDigito(s[k])
  }

  /** The longest prefix of `s` made of decimal digits. */
  function PrefixoDeDigitos(s: string): (r: string)
    ensures |r| <= |s| && r == s[..|r|] && SoDigitos(r)
    ensures |r| < |s| ==> !EhDigito(s[|r|])
  {
    if s != [] && EhDigito(s[0]) then [s[0]] + PrefixoDeDigitos(s[1..]) else []
  }

  lemma {:induction false} PrefixoDeDigitosDeDigitos(d: string)
    requires SoDigitos(d)
    ensures PrefixoDeDigitos(d) == d
  {
    if d != [] {
      PrefixoDeDigitosDeDigitos(d[1..]);
    }
  }

  /** The number a string of decimal digits denotes. */
  function ValorDecimal(d: string): nat
    requires SoDigitos(d)
  {
    if d == [] then 0 else ValorDecimal(d[..|d| - 1]) * 10 + (d[|d| - 1] as int - '0' as int)
  }

  /** `parseInt(s)` with no radix: leading white space is skipped, then an
      optional sign, then the longest run of decimal digits; no digit at all
      gives NaN, here `None`. */
  function ParseInt(s: string): (r: Option<int>)
  {
    var t := SemEspacoInicial(s);
    var negativo := t != [] && t[0] == '-';
    var corpo := if t != [] && (t[0] == '-' || t[0] == '+') then t[1..] else t;
    var d := PrefixoDeDigitos(corpo);
    var v: int := if negativo then -(ValorDecimal(d) as int) else ValorDecimal(d);
    if d == [] then None else Some(v)
  }

  /** 2^53: every integer of at most this magnitude is a JavaScript number
      exactly; above it, `+ 1` and `parseInt` round to a nearby number. */
  const LimiteExato: int := 0x20_0000_0000_0000

  predicate Exato(n: int) {
    -LimiteExato <= n <= LimiteExato
  }

  /** A non-empty run of digits whose value JavaScript holds exactly parses
      to the number it denotes. */
  lemma ParseIntDigitos(d: string)
    requires d != [] && SoDigitos(d)
    requires ValorDecimal(d) <= LimiteExato
    ensures ParseInt(d) == Some(ValorDecimal(d))
  {
    assert SemEspacoInicial(d) == d;
    PrefixoDeDigitosDeDigitos(d);
  }

  /** Leading white space is dropped up to the first other character. */
  lemma SemEspacoInicialApos(w: string, x: string)
    requires forall k :: 0 <= k < |w| ==> EhEspaco(w[k])
    requires x == [] || !EhEspaco(x[0])
    ensures SemEspacoInicial(w + x) == x
  {
    var s := w + x;
    assert SemEspacoInicial(s) == s[|w|..] == x;
  }

  /** The digit run ends where a non-digit starts. */
  lemma PrefixoDeDigitosAte(d: string, r: string)
    requires SoDigitos(d)
    requires r == [] || !EhDigito(r[0])
    ensures PrefixoDeDigitos(d + r) == d
  {
    var p := PrefixoDeDigitos(d + r);
    assert p == (d + r)[..|d|] == d;
  }

  /** After the white space, a minus sign and then a run of digits. */
  lemma ParseIntNegativo(s: string, d: string)
    requires SemEspacoInicial(s) != [] && SemEspacoInicial(s)[0] == '-'
    requires d != [] && PrefixoDeDigitos(SemEspacoInicial(s)[1..]) == d
    ensures ParseInt(s) == Some(-(ValorDecimal(d) as int))
  {
  }

  /** After the white space, a plus sign and then a run of digits. */
  lemma ParseIntPositivo(s: string, d: string)
    requires SemEspacoInicial(s) != [] && SemEspacoInicial(s)[0] == '+'
    requires d != [] && PrefixoDeDigitos(SemEspacoInicial(s)[1..]) == d
    ensures ParseInt(s) == Some(ValorDecimal(d))
  {
  }

  /** After the white space, digits followed by a non-digit. */
  lemma ParseIntSemSinal(s: string, d: string, r: string)
    requires SemEspacoInicial(s) == d + r
    requires d != [] && SoDigitos(d) && (r == [] || !EhDigito(r[0]))
    ensures ParseInt(s) == Some(ValorDecimal(d))
  {
    PrefixoDeDigitosAte(d, r);
    assert (d + r)[0] == d[0];
  }

  /** `parseInt` is lenient: it skips leading white space, takes one sign,
      reads the digits and ignores whatever follows them. */
  lemma ParseIntPrefixo(w: string, sinal: string, d: string, r: string)
    requires forall k :: 0 <= k < |w| ==> EhEspaco(w[k])
    requires sinal == "" || sinal == "+" || sinal == "-"
    requires d != [] && SoDigitos(d)
    requires r == [] || !EhDigito(r[0])
    ensures ParseInt(w + sinal + d + r) == Some(if sinal == "-" then -(ValorDecimal(d) as int) else ValorDecimal(d))
  {
    var x := sinal + (d + r);
    assert w + sinal + d + r == w + x;
    assert x[0] == if sinal == "" then d[0] else sinal[0];
    SemEspacoInicialApos(w, x);
    PrefixoDeDigitosAte(d, r);
    if sinal == "" {
      assert x == d + r;
      ParseIntSemSinal(w + x, d, r);
    } else if sinal == "-" {
      assert x[1..] == d + r;
      ParseIntNegativo(w + x, d);
    } else {
      assert x[1..] == d + r;
      ParseIntPositivo(w + x, d);
    }
  }

  function DigitoDe(n: nat): (c: char)
    requires n < 10
    ensures EhDigito(c) && c as int - '0' as int == n
  {
    ('0' as int + n) as char
  }

  /** The decimal text of a natural number, without leading zeros. */
  function DecimalNat(n: nat): (r: string)
    ensures r != [] && SoDigitos(r)
    ensures n > 0 ==> r[0] != '0'
    ensures |r| > 1 ==> n >= 10
  {
    if n < 10 then [DigitoDe(n)] else DecimalNat(n / 10) + [DigitoDe(n % 10)]
  }

  /** How a template string `${n}` writes an integer. */
  function Decimal(n: int): (r: string)
    ensures n >= 0 ==> r != [] && SoDigitos(r) && (|r| > 1 ==> r[0] != '0')
    ensures n < 0 ==> |r| >= 2 && r[0] == '-' && SoDigitos(r[1..]) && r[1] != '0'
  {
    if n < 0 then "-" + DecimalNat(-n) else DecimalNat(n)
  }

  lemma {:induction false} ValorDecimalNat(n: nat)
    ensures ValorDecimal(DecimalNat(n)) == n
  {
    if n >= 10 {
      var d := DecimalNat(n);
      assert d[..|d| - 1] == DecimalNat(n / 10);
      ValorDecimalNat(n / 10);
    }
  }

  /** Reading back the decimal text of an integer JavaScript holds exactly
      gives the integer. */
  lemma ParseIntDecimal(n: int)
    requires Exato(n)
    ensures ParseInt(Decimal(n)) == Some(n)
  {
    var s := Decimal(n);
    var d := DecimalNat(if n < 0 then -n else n);
    assert !EhEspaco(s[0]);
    assert SemEspacoInicial(s) == s;
    var corpo := if n < 0 then s[1..] else s;
    assert corpo == d;
    PrefixoDeDigitosDeDigitos(d);
    ValorDecimalNat(if n < 0 then -n else n);
  }

  /** `s.length`: JavaScript counts UTF-16 code units, two for a character
      above U+FFFF and one for any other. */
  function ComprimentoUtf16(s: string): (r: nat)
    ensures |s| <= r <= 2 * |s|
  {
    if s == [] then 0 else (if s[0] as int >= 0x1_0000 then 2 else 1) + ComprimentoUtf16(s[1..])
  }

  /** A string with no character above U+FFFF is as long in code units as in
      characters; one made only of such characters is twice as long. */
  lemma {:induction false} ComprimentoUtf16Extremos(s: string)
    ensures (forall k :: 0 <= k < |s| ==> s[k] as int < 0x1_0000) ==> ComprimentoUtf16(s) == |s|
    ensures (forall k :: 0 <= k < |s| ==> s[k] as int >= 0x1_0000) ==> ComprimentoUtf16(s) == 2 * |s|
  {
    if s != [] {
      ComprimentoUtf16Extremos(s[1..]);
      assert forall k :: 1 <= k < |s| ==> s[1..][k - 1] == s[k];
    }
  }
}

=== FILE: usuarios.dfy ===
/**
 * The account routes of JS/server.js: the e-mail shape check `validarEmail`,
 * the registration check chain and the login outcome chain, over the user
 * collection seen as a map from e-mail to record.
 */
module Usuarios {
  import opened Wrappers
  import opened Texto
  import opened Lojas

  // ---------------------------------------------------------------------
  // validarEmail: /^[^\s@]+@[^\s@]+\.[^\s@]+$/

  /** A character of the class `[^\s@]`. */
  predicate Comum(c: char) {
    !EhEspaco(c) && c != '@'
  }

  /** A run `[^\s@]+`. */
  predicate Trecho(s: string) {
    s != [] && forall k :: 0 <= k < |s| ==> Comum(s[k])
  }

  /** The regular expression, read literally: `a@b.c` with three runs. */
  ghost predicate CasaRegex(s: string) {
    exists a, b, c :: Trecho(a) && Trecho(b) && Trecho(c) && s == a + "@" + b + "." + c
  }

  /** A domain part: no white space or `@`, and a `.` that is neither its
      first nor its last character. */
  predicate Dominio(d: string) {
    (forall k :: 0 <= k < |d| ==> Comum(d[k])) &&
    exists j | 0 < j < |d| - 1 :: d[j] == '.'
  }

  /** `validarEmail(email)`: the text before the first `@` is a non-empty run,
      and the rest is a domain. An accepted address holds no white space and
      has at least five characters (`a@b.c`). */
  function ValidarEmail(email: string): (r: bool)
    ensures r ==> |email| >= 5 && forall k :: 0 <= k < |email| ==> !EhEspaco(email[k])
  {
    match IndiceDe(email, '@')
    case None => false
    case Some(i) =>
      if Trecho(email[..i]) && Dominio(email[i + 1..]) then
        PartesSemEspaco(email, i);
        true
      else
        false
  }

  /** A run, an `@` and a domain joined hold no white space and are at least
      five characters long. */
  lemma PartesSemEspaco(email: string, i: nat)
    requires i < |email| && email[i] == '@'
    requires Trecho(email[..i]) && Dominio(email[i + 1..])
    ensures |email| >= 5 && forall k :: 0 <= k < |email| ==> !EhEspaco(email[k])
  {
    var a, d := email[..i], email[i + 1..];
    var j :| 0 < j < |d| - 1 && d[j] == '.';
    forall k | 0 <= k < |email| ensures !EhEspaco(email[k]) {
      if k < i {
        assert email[k] == a[k];
      } else if k > i {
        assert email[k] == d[k - i - 1];
      }
    }
  }

  /** A domain splits at one of its dots into two runs. */
  lemma DominioPartes(d: string) returns (b: string, c: string)
    requires Dominio(d)
    ensures Trecho(b) && Trecho(c) && d == b + "." + c
  {
    var j :| 0 < j < |d| - 1 && d[j] == '.';
    b, c := d[..j], d[j + 1..];
    assert d == b + "." + c;
  }

  /** Every string `validarEmail` accepts matches the regular expression. */
  lemma ValidarEmailSoRegex(s: string)
    requires ValidarEmail(s)
    ensures CasaRegex(s)
  {
    var i := IndiceDe(s, '@').value;
    var a, d := s[..i], s[i + 1..];
    assert s == a + "@" + d;
    var b, c := DominioPartes(d);
    assert a + "@" + d == a + "@" + b + "." + c;
  }

  /** Every string the regular expression matches is accepted. */
  lemma RegexSoValidarEmail(s: string, a: string, b: string, c: string)
    requires Trecho(a) && Trecho(b) && Trecho(c)
    requires s == a + "@" + b + "." + c
    ensures ValidarEmail(s)
  {
    var d := b + "." + c;
    assert s == a + "@" + d;
    IndiceDeAposPrefixo(a, d, '@');
    assert s[..|a|] == a;
    assert s[|a| + 1..] == d;
    assert d[|b|] == '.';
    forall k | 0 <= k < |d| ensures Comum(d[k]) {
      if k > |b| {
        assert d[k] == c[k - |b| - 1];
      }
    }
  }

  /** `validarEmail` accepts exactly the strings its regular expression matches. */
  lemma ValidarEmailCasaRegex(s: string)
    ensures ValidarEmail(s) <==> CasaRegex(s)
  {
    if ValidarEmail(s) {
      ValidarEmailSoRegex(s);
    }
    if CasaRegex(s) {
      var a, b, c :| Trecho(a) && Trecho(b) && Trecho(c) && s == a + "@" + b + "." + c;
      RegexSoValidarEmail(s, a, b, c);
    }
  }

  // ---------------------------------------------------------------------
  // Registration and login

  /** A stored account. `senha` holds what the password hook stored (a
      bcrypt hash of the typed password); `tipo` and `fotoPerfil` are the
      schema's defaults. */
  datatype Usuario = Usuario(
    id: string,
    nome: string,
    dataNascimento: string,
    email: string,
    senha: string,
    tipo: string,
    fotoPerfil: Option<string>)

  /** The JSON body of `POST /usuarios/cadastro`. */
  datatype CorpoCadastro = CorpoCadastro(
    nome: Option<string>,
    dataNascimento: Option<string>,
    email: Option<string>,
    senha: Option<string>)

  /** The user collection: one account per e-mail. */
  type Usuarios = map<string, Usuario>

  /** Each account is stored under its own e-mail. */
  predicate Consistente(us: Usuarios) {
    forall e :: e in us ==> us[e].email == e
  }

  /** The four checks of the route, and `save()` rejecting a body whose
      `dataNascimento` the schema cannot cast to a date (the `catch`). */
  datatype ErroCadastro = CamposFaltando | EmailInvalido | SenhaCurta | EmailJaCadastrado | DataInvalida

  datatype Cadastro =
    | Recusado(erro: ErroCadastro)
    | Cadastrado(usuarios: Usuarios)

  /** The HTTP status and message of each outcome. */
  function StatusCadastro(r: Cadastro): int {
    if r.Cadastrado? then 201 else if r.erro == DataInvalida then 500 else 400
  }

  function MensagemCadastro(r: Cadastro): string {
    match r
    case Cadastrado(_) => "Usuário cadastrado com sucesso!"
    case Recusado(CamposFaltando) => "Preencha todos os campos obrigatórios."
    case Recusado(EmailInvalido) => "E-mail inválido."
    case Recusado(SenhaCurta) => "A senha deve ter pelo menos 6 caracteres."
    case Recusado(EmailJaCadastrado) => "E-mail já cadastrado."
    case Recusado(DataInvalida) => "Erro interno ao cadastrar usuário."
  }

  predicate CamposPresentes(c: CorpoCadastro) {
    Preenchido(c.nome) && Preenchido(c.dataNascimento) && Preenchido(c.email) && Preenchido(c.senha)
  }

  /** The four checks of `POST /usuarios/cadastro` pass. */
  predicate ChecagensPassam(us: Usuarios, c: CorpoCadastro) {
    CamposPresentes(c) && ValidarEmail(c.email.value) &&
    ComprimentoUtf16(c.senha.value) >= 6 && c.email.value !in us
  }

  /** `POST /usuarios/cadastro`. The database's new `_id`, bcrypt's hash and
      the schema's `Date` cast (`dataValida`: the text casts to a date) are
      parameters. */
  function Cadastrar(us: Usuarios, c: CorpoCadastro, novoId: string, hash: string -> string,
                     dataValida: string -> bool): (r: Cadastro)
    ensures r == Recusado(CamposFaltando) <==> !CamposPresentes(c)
    ensures r == Recusado(EmailInvalido) <==> CamposPresentes(c) && !ValidarEmail(c.email.value)
    ensures r == Recusado(SenhaCurta) <==>
              CamposPresentes(c) && ValidarEmail(c.email.value) && ComprimentoUtf16(c.senha.value) < 6
    ensures r == Recusado(EmailJaCadastrado) <==>
              CamposPresentes(c) && ValidarEmail(c.email.value) && ComprimentoUtf16(c.senha.value) >= 6 && c.email.value in us
    ensures r == Recusado(DataInvalida) <==> ChecagensPassam(us, c) && !dataValida(c.dataNascimento.value)
    ensures r.Cadastrado? <==> ChecagensPassam(us, c) && dataValida(c.dataNascimento.value)
    ensures r.Cadastrado? ==>
              && c.email.value !in us
              && r.usuarios.Keys == us.Keys + {c.email.value}
              && |r.usuarios| == |us| + 1
              && (forall e :: e in us ==> r.usuarios[e] == us[e])
              && r.usuarios[c.email.value].senha == hash(c.senha.value)
              && r.usuarios[c.email.value] == Usuario(novoId, c.nome.value, c.dataNascimento.value,
                                                      c.email.value, hash(c.senha.value), "usuario", None)
    ensures Consistente(us) && r.Cadastrado? ==> Consistente(r.usuarios)
  {
    if !CamposPresentes(c) then Recusado(CamposFaltando)
    else if !ValidarEmail(c.email.value) then Recusado(EmailInvalido)
    else if ComprimentoUtf16(c.senha.value) < 6 then Recusado(SenhaCurta)
    else if c.email.value in us then Recusado(EmailJaCadastrado)
    else if !dataValida(c.dataNascimento.value) then Recusado(DataInvalida)
    else
      var novo := Usuario(novoId, c.nome.value, c.dataNascimento.value, c.email.value,
                          hash(c.senha.value), "usuario", None);
      Cadastrado(us[c.email.value := novo])
  }

  /** The status of `POST /usuarios/cadastro`: 400 exactly when one of the
      four checks fails, 500 exactly when they pass but the date does not
      cast, 201 otherwise; only the 201 carries the success message. */
  lemma RespostaCadastro(us: Usuarios, c: CorpoCadastro, novoId: string, hash: string -> string,
                         dataValida: string -> bool)
    ensures var r := Cadastrar(us, c, novoId, hash, dataValida);
            && (StatusCadastro(r) == 400 <==> !ChecagensPassam(us, c))
            && (StatusCadastro(r) == 500 <==> ChecagensPassam(us, c) && !dataValida(c.dataNascimento.value))
            && (StatusCadastro(r) == 201 <==> ChecagensPassam(us, c) && dataValida(c.dataNascimento.value))
            && (MensagemCadastro(r) == "Usuário cadastrado com sucesso!" <==> StatusCadastro(r) == 201)
  {
  }

  /** The length check counts code units: six characters always pass it,
      and so do three characters above U+FFFF, while two never do. */
  lemma SenhaCurtaEmUnidades(senha: string)
    ensures |senha| >= 6 ==> ComprimentoUtf16(senha) >= 6
    ensures |senha| <= 2 ==> ComprimentoUtf16(senha) < 6
    ensures |senha| == 3 && (forall k :: 0 <= k < 3 ==> senha[k] as int >= 0x1_0000) ==>
              ComprimentoUtf16(senha) == 6
  {
    ComprimentoUtf16Extremos(senha);
  }

  /** Registering the same e-mail a second time is refused. */
  lemma CadastroRepetido(us: Usuarios, c: CorpoCadastro, id1: string, id2: string, hash: string -> string,
                         dataValida: string -> bool)
    requires Cadastrar(us, c, id1, hash, dataValida).Cadastrado?
    ensures Cadastrar(Cadastrar(us, c, id1, hash, dataValida).usuarios, c, id2, hash, dataValida)
            == Recusado(EmailJaCadastrado)
  {
  }

  /** The outcome of `POST /usuarios/login`. */
  datatype Login =
    | Falhou(status: int, erro: string)
    | Entrou(id: string, nome: string, email: string)

  /** `POST /usuarios/login`. `confere(digitada, armazenada)` stands for the
      account's `compararSenha`, bcrypt's comparison. */
  function Entrar(us: Usuarios, email: Option<string>, senha: Option<string>,
                  confere: (string, string) -> bool): (r: Login)
    ensures r.Falhou? ==> r.status in {400, 404, 401}
    ensures r.Falhou? && r.status == 400 <==> !Preenchido(email) || !Preenchido(senha)
    ensures r.Falhou? && r.status == 404 <==> Preenchido(email) && Preenchido(senha) && email.value !in us
    ensures r.Falhou? && r.status == 401 <==>
              Preenchido(email) && Preenchido(senha) && email.value in us &&
              !confere(senha.value, us[email.value].senha)
    ensures r.Entrou? ==>
              && Preenchido(email) && Preenchido(senha) && email.value in us
              && confere(senha.value, us[email.value].senha)
              && r == Entrou(us[email.value].id, us[email.value].nome, us[email.value].email)
  {
    if !Preenchido(email) || !Preenchido(senha) then Falhou(400, "Preencha e-mail e senha.")
    else if email.value !in us then Falhou(404, "Usuário não encontrado.")
    else
      var u := us[email.value];
      if !confere(senha.value, u.senha) then Falhou(401, "Senha incorreta.")
      else Entrou(u.id, u.nome, u.email)
  }

  /** After a successful registration, logging in with the same e-mail and
      password succeeds and returns the new account, provided bcrypt's
      comparison accepts a password against its own hash. */
  lemma CadastroEntaoLogin(us: Usuarios, c: CorpoCadastro, novoId: string, hash: string -> string,
                           dataValida: string -> bool, confere: (string, string) -> bool)
    requires Cadastrar(us, c, novoId, hash, dataValida).Cadastrado?
    requires confere(c.senha.value, hash(c.senha.value))
    ensures Entrar(Cadastrar(us, c, novoId, hash, dataValida).usuarios, c.email, c.senha, confere)
            == Entrou(novoId, c.nome.value, c.email.value)
  {
  }
}

=== FILE: vitrine.dfy ===
/**
 * The browser-side store page (JS/lojas.js): the free-text search over the
 * cached store list and the category / opening-hours / delivery filter.
 * The cache is passed in; the current hour is a parameter in 0..23.
 */
module Vitrine {
  import opened Wrappers
  import opened Texto
  import opened Sequencias
  import opened Lojas

  // ---------------------------------------------------------------------
  // Free-text search

  /** A store matches the lowered query through its name, its description
      when it has one, or its category when it is not empty. */
  predicate ConfereBusca(valor: string, l: Loja) {
    || Contem(Minusculas(l.nome), valor)
    || (Preenchido(l.descricao) && Contem(Minusculas(l.descricao.value), valor))
    || (l.categoria != "" && Contem(Minusculas(l.categoria), valor))
  }

  function FiltroBusca(valor: string): Loja -> bool {
    (l: Loja) => ConfereBusca(valor, l)
  }

  /** The query the search uses: the input trimmed and lowered. */
  function Consulta(entrada: string): string {
    Minusculas(Aparar(entrada))
  }

  /** The search input handler: what it renders for the typed text. */
  function Buscar(cache: seq<Loja>, entrada: string): (r: seq<Loja>)
    ensures |r| <= |cache|
    ensures forall l :: l in r ==> l in cache
    ensures Consulta(entrada) != "" ==> forall l :: l in r ==> ConfereBusca(Consulta(entrada), l)
  {
    var valor := Consulta(entrada);
    if valor == "" then cache else Filtrar(cache, FiltroBusca(valor))
  }

  /** Input made only of white space (or nothing) shows the whole cache. */
  lemma BuscaEmBrancoMostraTudo(cache: seq<Loja>, entrada: string)
    requires forall k :: 0 <= k < |entrada| ==> EhEspaco(entrada[k])
    ensures Buscar(cache, entrada) == cache
  {
    ApararVazio(entrada);
  }

  /** Any other input shows, in cache order, exactly the matching stores. */
  lemma BuscaExata(cache: seq<Loja>, entrada: string) returns (idx: seq<int>)
    requires exists k :: 0 <= k < |entrada| && !EhEspaco(entrada[k])
    ensures Consulta(entrada) != ""
    ensures SelecaoOrdenada(Buscar(cache, entrada), cache, FiltroBusca(Consulta(entrada)), idx)
  {
    ApararVazio(entrada);
    idx := FiltrarSelecao(cache, FiltroBusca(Consulta(entrada)));
  }

  /** The search does not see the case of ASCII letters in the input. */
  lemma BuscaIgnoraCaixa(cache: seq<Loja>, entrada: string)
    ensures Buscar(cache, Minusculas(entrada)) == Buscar(cache, entrada)
  {
    ApararMinusculas(entrada);
    MinusculasIdempotente(Aparar(entrada));
  }

  // ---------------------------------------------------------------------
  // Category, opening hours and delivery

  /** `parseInt(t.split(":")[0])`: the hour of an "HH:MM" time, or NaN. */
  function Hora(t: string): Option<int> {
    ParseInt(ParteAntesDe(t, ':'))
  }

  /** `horaAtual >= abre && horaAtual < fecha`; a comparison with NaN is false. */
  predicate Aberta(hora: int, abre: string, fecha: string) {
    && Hora(abre).Some? && hora >= Hora(abre).value
    && Hora(fecha).Some? && hora < Hora(fecha).value
  }

  /** `horaAtual < abre || horaAtual >= fecha`; a comparison with NaN is false. */
  predicate Fechada(hora: int, abre: string, fecha: string) {
    || (Hora(abre).Some? && hora < Hora(abre).value)
    || (Hora(fecha).Some? && hora >= Hora(fecha).value)
  }

  predicate CategoriaOk(categoria: string, l: Loja) {
    categoria == "todas" || l.categoria == categoria
  }

  /** Only a store with both times is checked; the others pass. */
  predicate HorarioOk(horario: string, hora: int, l: Loja) {
    if horario == "aberto" && Preenchido(l.abre) && Preenchido(l.fecha) then
      Aberta(hora, l.abre.value, l.fecha.value)
    else if horario == "fechado" && Preenchido(l.abre) && Preenchido(l.fecha) then
      Fechada(hora, l.abre.value, l.fecha.value)
    else
      true
  }

  /** `motoboy === true` for "sim", `motoboy === false` for "nao". */
  predicate EntregadorOk(entregador: string, l: Loja) {
    if entregador == "sim" then l.motoboy == Some(true)
    else if entregador == "nao" then l.motoboy == Some(false)
    else true
  }

  predicate ConfereFiltros(categoria: string, horario: string, entregador: string, hora: int, l: Loja) {
    CategoriaOk(categoria, l) && HorarioOk(horario, hora, l) && EntregadorOk(entregador, l)
  }

  function FiltroFiltros(categoria: string, horario: string, entregador: string, hora: int): Loja -> bool {
    (l: Loja) => ConfereFiltros(categoria, horario, entregador, hora, l)
  }

  /** The filter button: with an empty cache nothing is rendered (`None`, the
      alert); otherwise the stores passing all three filters. */
  function AplicarFiltros(cache: seq<Loja>, categoria: string, horario: string, entregador: string,
                          hora: int): (r: Option<seq<Loja>>)
    requires 0 <= hora < 24
    ensures r.None? <==> cache == []
  {
    if cache == [] then None else Some(Filtrar(cache, FiltroFiltros(categoria, horario, entregador, hora)))
  }

  /** The filters keep, in cache order, exactly the stores passing all three. */
  lemma FiltrosExatos(cache: seq<Loja>, categoria: string, horario: string, entregador: string, hora: int)
    returns (idx: seq<int>)
    requires 0 <= hora < 24
    requires cache != []
    ensures SelecaoOrdenada(AplicarFiltros(cache, categoria, horario, entregador, hora).value, cache,
                            FiltroFiltros(categoria, horario, entregador, hora), idx)
  {
    idx := FiltrarSelecao(cache, FiltroFiltros(categoria, horario, entregador, hora));
  }

  /** "todas", no hour choice and no delivery choice show the whole cache. */
  lemma FiltrosNeutros(cache: seq<Loja>, horario: string, entregador: string, hora: int)
    requires 0 <= hora < 24
    requires cache != []
    requires horario != "aberto" && horario != "fechado"
    requires entregador != "sim" && entregador != "nao"
    ensures AplicarFiltros(cache, "todas", horario, entregador, hora) == Some(cache)
  {
    FiltrarTodos(cache, FiltroFiltros("todas", horario, entregador, hora));
  }

  /** With both hours readable, "aberto" and "fechado" are complements. */
  lemma AbertaOuFechada(hora: int, abre: string, fecha: string)
    requires Hora(abre).Some? && Hora(fecha).Some?
    ensures Aberta(hora, abre, fecha) <==> !Fechada(hora, abre, fecha)
  {
  }

  /** With neither hour readable (NaN), the store passes neither choice. */
  lemma HorasIlegiveis(hora: int, abre: string, fecha: string)
    requires Hora(abre).None? && Hora(fecha).None?
    ensures !Aberta(hora, abre, fecha) && !Fechada(hora, abre, fecha)
  {
  }

  /** A closing hour at or before the opening hour (a store that closes after
      midnight) is never "aberto" and always "fechado". */
  lemma FechaAposMeiaNoite(hora: int, abre: string, fecha: string)
    requires Hora(abre).Some? && Hora(fecha).Some?
    requires Hora(fecha).value <= Hora(abre).value
    ensures !Aberta(hora, abre, fecha)
    ensures Fechada(hora, abre, fecha)
  {
  }

  /** The hour of an "HH:MM" time whose hour part is made of digits. */
  lemma HoraDeHHMM(h: string, m: string)
    requires h != [] && SoDigitos(h)
    requires ValorDecimal(h) <= LimiteExato
    ensures Hora(h + ":" + m) == Some(ValorDecimal(h))
  {
    assert ':' !in h by {
      forall k | 0 <= k < |h| ensures h[k] != ':' {
        assert EhDigito(h[k]);
      }
    }
    IndiceDeAposPrefixo(h, m, ':');
    assert (h + ":" + m)[..|h|] == h;
    ParseIntDigitos(h);
  }

  /** A store whose times are "HH:MM" texts with a closing hour at or before
      its opening hour is never kept by "aberto" and always by "fechado". */
  lemma FechaAntesDeAbrir(hora: int, l: Loja, ha: string, ma: string, hf: string, mf: string)
    requires ha != [] && SoDigitos(ha) && hf != [] && SoDigitos(hf)
    requires ValorDecimal(ha) <= LimiteExato && ValorDecimal(hf) <= LimiteExato
    requires l.abre == Some(ha + ":" + ma) && l.fecha == Some(hf + ":" + mf)
    requires ValorDecimal(hf) <= ValorDecimal(ha)
    ensures !HorarioOk("aberto", hora, l)
    ensures HorarioOk("fechado", hora, l)
  {
    HoraDeHHMM(ha, ma);
    HoraDeHHMM(hf, mf);
    FechaAposMeiaNoite(hora, l.abre.value, l.fecha.value);
  }

  lemma ValorDeDoisDigitos(d1: char, d2: char)
    requires EhDigito(d1) && EhDigito(d2)
    ensures ValorDecimal([d1, d2]) == (d1 as int - '0' as int) * 10 + (d2 as int - '0' as int)
  {
    var h := [d1, d2];
    assert h[..|h| - 1] == [d1] && [d1][..0] == [];
    assert ValorDecimal([d1]) == d1 as int - '0' as int;
    assert ValorDecimal(h) == ValorDecimal([d1]) * 10 + (d2 as int - '0' as int);
  }

  /** The seed's "Lanchonete Sabor Local" (10:00 to 02:00) is never shown
      as open, at any hour. */
  lemma LanchoneteNuncaAberta(hora: int)
    ensures !HorarioOk("aberto", hora, Lanchonete())
    ensures HorarioOk("fechado", hora, Lanchonete())
  {
    ValorDeDoisDigitos('1', '0');
    ValorDeDoisDigitos('0', '2');
    assert "10:00" == "10" + ":" + "00" && "02:00" == "02" + ":" + "00";
    FechaAntesDeAbrir(hora, Lanchonete(), "10", "00", "02", "00");
  }

  /** A store missing either time passes both hour choices. */
  lemma SemHorarioPassa(horario: string, hora: int, l: Loja)
    requires !Preenchido(l.abre) || !Preenchido(l.fecha)
    ensures HorarioOk(horario, hora, l)
  {
  }

  /** A store with no `motoboy` flag passes neither "sim" nor "nao". */
  lemma SemMotoboy(l: Loja)
    requires l.motoboy.None?
    ensures !EntregadorOk("sim", l) && !EntregadorOk("nao", l)
    ensures forall e :: e != "sim" && e != "nao" ==> EntregadorOk(e, l)
  {
  }
}

=== FILE: wrappers.dfy ===
/** The optional value: a JSON key that may be absent, `NaN`, "not found". */
module Wrappers {

  datatype Option<+T> = None | Some(value: T)
}
